=== FILE: README.md ===
# Pitch contours of AnkiDroid's tone trainer, in Dafny

This project models the pure core of AnkiDroid's Chinese tone-practice feature and proves properties about it.

- **`Pitch.FilterPitch`** cleans a detected pitch track. A track is a list of `[t, f]` pairs. `f = -1` means that no pitch was found.
  - Pass 1 keeps the band holding the most voiced values whose top is below 3.32 times its bottom; ties go to the lowest band.
  - Pass 2 drops glitches that the voice could neither reach nor leave in time. `checkSlewRate` makes that test.
  - Pass 3 collapses and trims runs of silence.
- **The FFT buffer-size loop in `Pitch.drawPitch`.**
- **`PitchScore.pitchSeries` and `pitchDistance`.** They trim the silence at either end of a recording, take log10 of the positive frequencies, and score an empty series as -1.
- **Three helpers in `pitch.js`:**
  - `marks2numbers`, the ordered table of replace-all rewrites from tone marks to tone digits;
  - the y-axis range of `graph_draw`;
  - the shift to time 0 in `pinyin2graph`.

Modules:

| module | file | contents |
|---|---|---|
| `PitchTypes` | pitch_types.dfy | samples, the -1 sentinel, subsequences, and the abstract logarithm |
| `RangeWindow` | range_window.dfy | sorting, and the window search of pass 1 with its characterisation |
| `RangeBand` | range_window.dfy | the band filter of pass 1, and the proof that the chosen band is maximal |
| `SlewRate` | slew_rate.dfy | `checkSlewRate` and pass 2 |
| `Silence` | silence.dfy | pass 3 |
| `FilterPitch` | filter_pitch.dfy | the three passes composed |
| `FilterScenarios` | filter_scenarios.dfy | worked inputs, with each pass's output proved |
| `FftSize` | fft_size.dfy | the buffer-size loop, both the mathematical version and the 32-bit Java version |
| `PitchScore` | pitch_score.dfy | trimming, the log step and the empty-series score |
| `Pinyin` | pinyin.dfy | `marks2numbers` |
| `Graph` | graph.dfy | the y range and the time rebasing |

Math.log and Math.log10 are passed in as functions.
- Lemmas that need properties of `ln` assume `IsLog(ln)`: it is strictly increasing on the positive reals, and 1 - 1/x <= ln x <= x - 1 holds.
- FastDTW is also passed in as a function.
- `word2tones` is not part of this model. The stylised tone contour it yields is therefore a parameter of the graph range.

What the code does, including the places where its own comments say something else:
- **Pass 1 window.** The comments at Pitch.java:26 and Pitch.java:366-367 call the pitch range of Chinese speech "less than an octave". The window test at Pitch.java:389 and Pitch.java:405 is the Hz ratio `f_high < 2.0 * 1.66 * f_low`, that is `f_high < 3.32 * f_low`. That is more than an octave and a half, and it is not a width in semitones.
- **Graph floor.** The comment at pitch.js:47-48 says the graph draws at least an octave of 12 semitones. pitch.js:50 subtracts 12 from the plotted values, and pitch.js:8 says those values are frequencies in Hz. Pitch.java:335 passes FilterPitch's output, in Hz, to `graph_draw`. So the graph shows at least 12 Hz, which for a voice is much less than an octave (see "## Findings").
- **Time rebasing.** `FilterPitch` keeps the timestamps it is given. Only `pinyin2graph` (pitch.js:80-85) moves a contour to time 0. `FilterScenarios.OutlierAndSilence` and `FilterScenarios.SingleSample` show the original timestamps kept.
- **Pass 2 flag.** The flag carried into the next step is the check against the previous input sample, even when that sample was dropped. It is not reset after a drop. Two glitches in a row are therefore both dropped (`FilterScenarios.ConsecutiveGlitchesBothDropped`).
- **Spikes.** An 800 Hz spike between ~100 Hz samples is removed by pass 1 (`FilterScenarios.HighSpikeDroppedByRange`), not by pass 2. A 300 Hz spike survives pass 1 and is removed by pass 2 (`FilterScenarios.LowSpikeDroppedBySlew`).
- **`hertzToSemitone`** (Pitch.java:513-517) is never called.
- **Short contours.** A contour of two or fewer samples passes pass 2 unchanged, with no special case in the code.
- **Empty input.** An empty input reaches `litr.next()` on an empty list in pass 2 and throws. The model returns `None`.
- **Bare ü.** The table rewrites a bare ü (U+00FC), which carries no tone mark, to "uu1" (pitch.js:235). So a string comes back only lower-cased exactly when it holds none of the table's characters, ü included. The tone-1 ü with a macron, ǖ (U+01D6), has no rule and comes back unchanged, mark included.

## Model

| member | source | states |
|---|---|---|
| RangeWindow.Sort | AnkiDroid/src/main/java/com/ichi2/libanki/Pitch.java:374-383 | the voiced frequencies come out sorted, as a permutation of the input |
| RangeWindow.SortedArrangementUnique | AnkiDroid/src/main/java/com/ichi2/libanki/Pitch.java:383 | two sorted arrangements of the same multiset are equal, so the sorted list is determined by the voiced frequencies alone |
| RangeWindow.SelectWindow | AnkiDroid/src/main/java/com/ichi2/libanki/Pitch.java:386-414 | the early-exit double loop finds the reference window; no admissible window (f_high < 3.32 f_low) holds more values; with none admissible the cutoffs keep their initial min/max or -1 |
| RangeWindow.BestWindowCharacterised | AnkiDroid/src/main/java/com/ichi2/libanki/Pitch.java:386-414 | the window is maximal among admissible windows, and ties go to the smallest left index, because the comparison is a strict `>` and `i` ascends |
| RangeBand.BandFilter | AnkiDroid/src/main/java/com/ichi2/libanki/Pitch.java:418-426 | pass 1 keeps, in order, exactly the samples that are silent or lie within the cutoffs |
| RangeBand.BandFilterMultiplicity | AnkiDroid/src/main/java/com/ichi2/libanki/Pitch.java:418-426 | each sample inside the band, or silent, is kept exactly as often as the input holds it, and every other sample not at all |
| RangeBand.RangePass | AnkiDroid/src/main/java/com/ichi2/libanki/Pitch.java:374-426 | pass 1 returns a subsequence of its input that keeps every silent sample, and each voiced frequency it keeps is one of the input's |
| RangeBand.VoicedKeptByBand | AnkiDroid/src/main/java/com/ichi2/libanki/Pitch.java:418-426 | the number of voiced samples kept equals the number of voiced frequencies inside [cutoff_low, cutoff_high] |
| RangeBand.RangePassMaximal | AnkiDroid/src/main/java/com/ichi2/libanki/Pitch.java:374-426 | no admissible band [a, b] with b < 3.32 a would keep more voiced samples than pass 1 keeps |
| SlewRate.CheckSlewRate | AnkiDroid/src/main/java/com/ichi2/libanki/Pitch.java:474-511 | a pair passes whenever either frequency is <= 0, and whenever the two frequencies are equal |
| SlewRate.SlewSymmetric | AnkiDroid/src/main/java/com/ichi2/libanki/Pitch.java:477-489 | the verdict does not depend on argument order, including for two samples at the same instant |
| SlewRate.SlewRisingIff | AnkiDroid/src/main/java/com/ichi2/libanki/Pitch.java:500-503 | a rising pair passes iff delta_t * 1.66 > 0.1506 * ln(f1/f0) |
| SlewRate.SlewFallingIff | AnkiDroid/src/main/java/com/ichi2/libanki/Pitch.java:504-507 | a falling pair passes iff delta_t * 1.66 > 0.1004 * ln(f0/f1) |
| SlewRate.SimultaneousJumpFails | AnkiDroid/src/main/java/com/ichi2/libanki/Pitch.java:491-507 | two different positive pitches at the same instant never pass |
| SlewRate.SlewSlowerStillPasses | AnkiDroid/src/main/java/com/ichi2/libanki/Pitch.java:491-507 | a pair that passes still passes when the same pitch change takes longer |
| SlewRate.SlewPass | AnkiDroid/src/main/java/com/ichi2/libanki/Pitch.java:429-451 | the iterator loop with check_curr/check_next drops exactly the samples whose transitions in and out both fail; the first and last samples are always kept; the input must be non-empty |
| SlewRate.SlewFilterKeeps | AnkiDroid/src/main/java/com/ichi2/libanki/Pitch.java:439-449 | pass 2 output is an order-preserving subsequence of its input that holds every non-glitch, every silent sample, and every neighbour of a silent sample |
| SlewRate.SlewFilterShort | AnkiDroid/src/main/java/com/ichi2/libanki/Pitch.java:432-451 | contours of one or two samples pass through unchanged |
| Silence.SilencePass | AnkiDroid/src/main/java/com/ichi2/libanki/Pitch.java:453-465 | the loop and the final removal compute the reference collapse-and-trim; the result has no two adjacent -1 samples and neither starts nor ends with -1 |
| Silence.SilenceSpecKeepsVoiced | AnkiDroid/src/main/java/com/ichi2/libanki/Pitch.java:453-465 | pass 3 keeps every voiced sample, in order, and deletes only samples |
| Silence.SilenceSpecFixedIff | AnkiDroid/src/main/java/com/ichi2/libanki/Pitch.java:453-465 | pass 3 leaves a contour unchanged iff the contour is already clean, and applying it twice equals applying it once |
| FilterPitch.Filter | AnkiDroid/src/main/java/com/ichi2/libanki/Pitch.java:360-468 | FilterPitch, step by step, equals the composed passes; it fails exactly on the empty input, and otherwise returns a clean subsequence of its input |
| FilterPitch.RangePassNonEmpty | AnkiDroid/src/main/java/com/ichi2/libanki/Pitch.java:394-426 | pass 1 never empties a non-empty contour, so pass 2's unconditional `litr.next()` fails only on empty input |
| FilterPitch.FilterSpecShape | AnkiDroid/src/main/java/com/ichi2/libanki/Pitch.java:360-468 | the result is absent iff the input is empty; otherwise it is clean, a subsequence of the input, and time-ordered whenever the input is |
| FilterPitch.FilterSpecWithinRange | AnkiDroid/src/main/java/com/ichi2/libanki/Pitch.java:386-426 | for positive pitches, every two voiced samples of the result are within a factor 3.32 of each other |
| FilterScenarios.OutlierAndSilence | AnkiDroid/src/main/java/com/ichi2/libanki/Pitch.java:360-468 | a 500 Hz outlier among 100-108 Hz is removed by pass 1; a run of silences collapses to one; timestamps are kept |
| FilterScenarios.HighSpikeDroppedByRange | AnkiDroid/src/main/java/com/ichi2/libanki/Pitch.java:399-426 | an 800 Hz spike between ~100 Hz samples is already removed by pass 1 |
| FilterScenarios.LowSpikeDroppedBySlew | AnkiDroid/src/main/java/com/ichi2/libanki/Pitch.java:429-451 | a 300 Hz spike lasting 20 ms survives pass 1 and is removed by pass 2 |
| FilterScenarios.SingleSample | AnkiDroid/src/main/java/com/ichi2/libanki/Pitch.java:360-468 | a single voiced sample comes back unchanged, timestamp included |
| FilterScenarios.ConsecutiveGlitchesBothDropped | AnkiDroid/src/main/java/com/ichi2/libanki/Pitch.java:436-450 | two adjacent glitches are both dropped, because check_next is not reset after a drop, although the second one, checked against the sample kept before it, would pass |
| FftSize.FftSize | AnkiDroid/src/main/java/com/ichi2/libanki/Pitch.java:307-310 | the loop ends with FFTSize = 512 * 2^k, where 24 * FFTSize >= sampleRate and k is the least such exponent |
| FftSize.FftSizeUnique | AnkiDroid/src/main/java/com/ichi2/libanki/Pitch.java:307-310 | only one buffer size is a large-enough power-of-two multiple of 512 whose half is not large enough |
| FftSize.CommonRates | AnkiDroid/src/main/java/com/ichi2/libanki/Pitch.java:307-310 | 22050 Hz gives 1024, and 44100 and 48000 Hz give 2048 |
| FftSize.SizeAfter | AnkiDroid/src/main/java/com/ichi2/libanki/Pitch.java:307-310 | after k doublings on Java ints, FFTSize is the int that 512 * 2^k wraps to |
| FftSize.GuardAsWritten | AnkiDroid/src/main/java/com/ichi2/libanki/Pitch.java:308 | the 32-bit test `24 * FFTSize < sampleRate` agrees with the exact comparison while the product fits an int, and holds for any positive rate once the product wraps to zero or below |
| FftSize.AsWrittenAgreesBelowOverflow | AnkiDroid/src/main/java/com/ichi2/libanki/Pitch.java:307-310 | up to 1610612736 Hz, the 32-bit loop stops where the mathematical one does |
| FftSize.AsWrittenNeverStops | AnkiDroid/src/main/java/com/ichi2/libanki/Pitch.java:307-310 | above 1610612736 Hz, the 32-bit loop condition holds after every doubling, so the loop never stops |
| FftSize.LargestIntRateNeverStops | AnkiDroid/src/main/java/com/ichi2/libanki/Pitch.java:307-310 | at sampleRate = Integer.MAX_VALUE, the loop never stops |
| PitchScore.TrimSilence | AnkiDroid/src/main/java/com/ichi2/libanki/PitchScore.java:70-80 | the two removal loops leave a contiguous slice of both lists (kept the same length), whose first and last frequencies are not -1, or empty lists; interior -1 values are kept |
| PitchScore.TrimUnique | AnkiDroid/src/main/java/com/ichi2/libanki/PitchScore.java:70-80 | the trim is determined by the input: any two results with the stated shape are equal |
| PitchScore.AllSilentTrimsToEmpty | AnkiDroid/src/main/java/com/ichi2/libanki/PitchScore.java:70-80 | a recording with no pitch anywhere trims to empty lists |
| PitchScore.LogPositive | AnkiDroid/src/main/java/com/ichi2/libanki/PitchScore.java:82-84 | only positive frequencies are replaced by their log10; values <= 0 are left unchanged |
| PitchScore.PitchSeries | AnkiDroid/src/main/java/com/ichi2/libanki/PitchScore.java:70-94 | the series has the trimmed timestamps and the log-transformed trimmed frequencies, in parallel |
| PitchScore.PitchDistance | AnkiDroid/src/main/java/com/ichi2/libanki/PitchScore.java:97-117 | the score is -1 when either series could not be computed, when either is empty, or when FastDTW throws; otherwise it is the DTW distance; any score other than -1 is the DTW distance of two non-empty series |
| PitchScore.SilentRecordingScoresMinusOne | AnkiDroid/src/main/java/com/ichi2/libanki/PitchScore.java:70-106 | a recording with no detected pitch scores -1 against anything |
| Pinyin.LowerStr | AnkiDroid/src/main/assets/scripts/pitch.js:96 | lower-casing keeps the length and maps each character on its own; A-Z move to a-z and characters without an upper-case form are kept |
| Pinyin.ReplaceAll | AnkiDroid/src/main/assets/scripts/pitch.js:97-263 | a global replace brings in no character that is not in the text or the replacement, and replacing a single character by text without it removes it |
| Pinyin.Marks2Numbers | AnkiDroid/src/main/assets/scripts/pitch.js:95-266 | none of the table's 24 marked characters survives: each is removed at the latest by the rules of its bare vowel; ǖ (U+01D6), which the table lacks, is not covered (see "## Findings") |
| Pinyin.MarksGone | AnkiDroid/src/main/assets/scripts/pitch.js:235-263 | the table, run on any string, leaves none of its own 24 marked characters |
| Pinyin.RemovedBy | AnkiDroid/src/main/assets/scripts/pitch.js:235-263 | once a bare-vowel family has run, none of that vowel's marked forms is left, and later rules do not bring one back |
| Pinyin.LowerStrIdempotent | AnkiDroid/src/main/assets/scripts/pitch.js:96 | lower-casing twice equals lower-casing once |
| Pinyin.Marks2NumbersIgnoresCase | AnkiDroid/src/main/assets/scripts/pitch.js:96 | the input is lower-cased before any rule runs, so the result does not depend on letter case |
| Pinyin.NoMarksOnlyLowered | AnkiDroid/src/main/assets/scripts/pitch.js:96-265 | a string with none of the table's marked vowels comes back only lower-cased |
| Pinyin.FamiliesLongestFirst | AnkiDroid/src/main/assets/scripts/pitch.js:97-263 | along the table, pattern length never increases |
| Pinyin.OnlyItselfMatches | AnkiDroid/src/main/assets/scripts/pitch.js:97-263 | a pattern occurs in an equally long or shorter pattern only when it is that same rule |
| Pinyin.RuleRewritesToItsOwn | AnkiDroid/src/main/assets/scripts/pitch.js:96-265 | each rule's pattern, alone, is rewritten to that rule's replacement: no earlier rule shadows it, and no later rule touches the result |
| Pinyin.MarkedSyllable | AnkiDroid/src/main/assets/scripts/pitch.js:96-265 | any spelling of a rule's pattern, in upper, lower or mixed case, is rewritten to that rule's replacement |
| Pinyin.UangIsUang1 | AnkiDroid/src/main/assets/scripts/pitch.js:96-97 | "UĀNG" becomes "uang1", through the first rule rather than the "āng" or "ā" rules |
| Pinyin.YuTones | AnkiDroid/src/main/assets/scripts/pitch.js:235-238 | ü, ǘ, ǚ, ǜ become "uu" followed by 1, 2, 3, 4 |
| Pinyin.YuanIsUu1an | AnkiDroid/src/main/assets/scripts/pitch.js:112 | in a longer final, the digit follows "uu" directly: "üan" becomes "uu1an" |
| Pinyin.BreveAndCaronAreTone3 | AnkiDroid/src/main/assets/scripts/pitch.js:239-263 | both the breve and the caron spelling of a vowel give tone 3 |
| Pinyin.ToneOneYuSurvives | AnkiDroid/src/main/assets/scripts/pitch.js:235-238 | Ǖ comes back as ǖ, still tone-marked: no rule of the table matches it |
| Pinyin.Marks2NumbersCorrected | AnkiDroid/src/main/assets/scripts/pitch.js:91-266 | with ǖ read as the bare ü before the table runs, no marked character of the table and no ǖ is left |
| Pinyin.CorrectedAgrees | AnkiDroid/src/main/assets/scripts/pitch.js:95-266 | on text without ǖ, the corrected conversion equals marks2numbers |
| Pinyin.CorrectedToneOneYu | AnkiDroid/src/main/assets/scripts/pitch.js:235 | with the correction, Ǖ gives "uu1", the tone-1 form the table gives the bare ü |
| Graph.GraphRange | AnkiDroid/src/main/assets/scripts/pitch.js:28-50 | -1 samples become null and are left out; ymax is the greatest shown value (null if none); ymin is the least shown value, lowered to ymax - 12 when needed, so at least 12 Hz are drawn; with nothing shown ymin is -12 |
| Graph.ShownRange | AnkiDroid/src/main/assets/scripts/pitch.js:28-44 | after both min/max loops, ymin and ymax are the least and greatest values of the track and the tone contour together, or both null when neither shows a value |
| Graph.FloorAsWritten | AnkiDroid/src/main/assets/scripts/pitch.js:50 | the floor is the least value or ymax - 12, whichever is lower, so the graph is at least 12 tall; nulls count as 0 |
| Graph.TwelveHzFloorFallsShortOfOctave | AnkiDroid/src/main/assets/scripts/pitch.js:47-50 | for a top above 24 Hz and data spanning less than an octave, the floor stays above half the top: less than an octave is drawn |
| Graph.TypicalVoiceShowsLessThanOctave | AnkiDroid/src/main/assets/scripts/pitch.js:47-50 | a voice between 200 and 210 Hz is drawn from 198 Hz, not from the 105 Hz an octave down |
| Graph.FloorOctave | AnkiDroid/src/main/assets/scripts/pitch.js:47-48 | the floor the comment asks for: the least value or half the top, whichever is lower |
| Graph.GraphRangeOctave | AnkiDroid/src/main/assets/scripts/pitch.js:28-50 | the same ymax as graph_draw, and a ymin at most half of it and at most every shown value: the graph spans at least an octave |
| Graph.Nulled | AnkiDroid/src/main/assets/scripts/pitch.js:29 | each point keeps its time; its value is null exactly where the sample is silent, and the frequency otherwise |
| Graph.Widen | AnkiDroid/src/main/assets/scripts/pitch.js:28-32 | the min/max loop ends with the least and greatest non-null values of what it has seen, or nulls if there were none |
| Graph.RangeUnique | AnkiDroid/src/main/assets/scripts/pitch.js:28-44 | the least and greatest values are determined by the list of values alone |
| Graph.NulledValues | AnkiDroid/src/main/assets/scripts/pitch.js:29 | after -1 becomes null, the values shown are exactly the voiced frequencies |
| Graph.SilenceDoesNotMoveRange | AnkiDroid/src/main/assets/scripts/pitch.js:28-32 | tracks with the same voiced frequencies show the same values, whatever their silences |
| Graph.Rebase | AnkiDroid/src/main/assets/scripts/pitch.js:80-85 | the first point's time becomes 0, every time difference is kept, and the values are untouched |
| Graph.RebasedIsTheShiftToZero | AnkiDroid/src/main/assets/scripts/pitch.js:80-85 | the rebased contour is the one uniform shift of the input that starts at 0 |

## Left out

- Audio capture, playback, FFT_YIN pitch detection, time-stretching, threads and the silence time-out are left out. They are device I/O and concurrency (Pitch.java:190-350).
- SampleRates is left out. Its choice probes Android audio APIs. `FftSize.FftSize` takes the sample rate as a parameter.
- Preferences, temporary files and the WebView bridge are left out. They are plumbing.
- FastDTW.compare is a foreign library call. It is the parameter `dtw` of `PitchScore.PitchDistance`, which returns `None` where the call throws. Which exceptions pitchSeries throws (a missing or unreadable sound file) is not modelled: its result is passed in as an `Option`, `None` for a throw.
- Math.log and Math.log10 are not modelled as functions of their own. They are the parameters `ln` and `log10`. Floating-point rounding is not modelled: times and frequencies are exact reals, the `(float)` casts in PitchScore included.
- hertzToSemitone (Pitch.java:514-517) is left out. Nothing calls it.
- `word2tones` and the pitch-tier loop of `pinyin2graph` (pitch.js:67-77) depend on code not shown. The tone contour they build is a parameter of `Graph.GraphRange`, and `Graph.Rebase` starts from its result.
- Flotr.draw and the DOM lookups of `graph_draw` are left out. They are rendering.
- Pinyin.LowerStr / Pinyin.LowerChar: lower-casing is modelled only for the characters pinyin can hold. These are ASCII, Latin-1, Latin Extended-A and the caron vowels of Latin Extended-B. U+0130 (capital I with dot above) is an exception inside those ranges: JavaScript lowers it to two characters, U+0069 U+0307, and the model leaves it as it is. Every other character is treated as having no lower-case form, so the model is weaker than String.prototype.toLowerCase outside those ranges.

## Findings

| source | as written | input that shows it | evidently intended | confidence | as-written member | corrected member |
|---|---|---|---|---|---|---|
| AnkiDroid/src/main/java/com/ichi2/libanki/Pitch.java:307-310 | `FFTSize` is a Java `int` doubled until `24 * FFTSize >= sampleRate`; both products wrap around at 2^31 | any sampleRate above 1610612736: after 22 doublings FFTSize is -2^31, then 0, and `24 * FFTSize < sampleRate` stays true forever | stop at the least 512 * 2^k with 24 * 512 * 2^k >= sampleRate | not executed; low in practice, since SampleRates.java:78 only offers 48000, 44100 and 22050 | FftSize.AsWrittenNeverStops | FftSize.FftSize |
| AnkiDroid/src/main/assets/scripts/pitch.js:47-50 | `if (ymin > ymax - 12) { ymin = ymax - 12; }` on values in Hz | a voice between 200 and 210 Hz is drawn from 198 Hz, so the graph shows 12 Hz, about one semitone | draw at least an octave below the top, as pitch.js:47-48 and Pitch.java:31-32 say: a floor of at most half the top frequency | not executed; high, the units are stated at pitch.js:8 and Pitch.java:335 passes Hz | Graph.TwelveHzFloorFallsShortOfOctave | Graph.GraphRangeOctave |
| AnkiDroid/src/main/assets/scripts/pitch.js:235-238 | the ü rules match the bare ü (U+00FC) and ǘ, ǚ, ǜ; there is no rule for ǖ (U+01D6) | "Ǖ" comes back as "ǖ", tone mark included | convert every tone mark to a tone number, as the comment at pitch.js:91 says: ǖ becomes "uu1" like the bare ü | not executed; medium, ǖ is the usual spelling of tone 1 on ü, although text that writes tone 1 as the bare ü converts correctly | Pinyin.ToneOneYuSurvives | Pinyin.Marks2NumbersCorrected |

=== FILE: fft_size.dfy ===
/** The FFT buffer size chosen in Pitch.drawPitch: the smallest power-of-two
    multiple of 512 samples whose frames, 24 of them, cover one second of
    audio, so that the detector reports about 24 to 48 pitch values a second. */
module FftSize {

  /** The smallest buffer the loop starts from. */
  const MinFftSize: int := 512

  /** The pitch values per second the size aims for at the least. */
  const FramesPerSecond: int := 24

  /** The largest sample rate whose size search stays within Java's int:
      24 * 2^26, reached when the buffer is 2^26 samples. */
  const LargestSafeRate: int := 1610612736

  const Int32Modulus: int := 0x1_0000_0000

  predicate IsInt32(x: int) {
    -0x8000_0000 <= x < 0x8000_0000
  }

  function Pow2(k: nat): (r: int)
    ensures r >= 1
  {
    if k == 0 then 1 else 2 * Pow2(k - 1)
  }

  /** 512 * 2^k for some k. */
  ghost predicate IsBufferSize(size: int) {
    exists k: nat :: size == MinFftSize * Pow2(k)
  }

  // --------------------------------------------------- corrected definition

  /** The number of doublings from 512 at which 24 frames cover the rate. */
  function StepsFrom(rate: int, k: nat): (n: nat)
    ensures n >= k
    ensures FramesPerSecond * (MinFftSize * Pow2(n)) >= rate
    ensures forall j | k <= j < n :: FramesPerSecond * (MinFftSize * Pow2(j)) < rate
    decreases rate - FramesPerSecond * MinFftSize * Pow2(k)
  {
    if FramesPerSecond * (MinFftSize * Pow2(k)) < rate then StepsFrom(rate, k + 1) else k
  }

  /** Reference definition of the buffer size, in unbounded arithmetic. */
  function FftSizeSpec(rate: int): int {
    MinFftSize * Pow2(StepsFrom(rate, 0))
  }

  /** The size loop of Pitch.drawPitch in unbounded arithmetic (as if `long`):
      the result is a power-of-two multiple of 512, covers the rate, and is
      the least such (halving it, unless it is 512, would not cover). */
  method FftSize(rate: int) returns (size: int)
    ensures size == FftSizeSpec(rate)
    ensures IsBufferSize(size)
    ensures FramesPerSecond * size >= rate
    ensures size == MinFftSize || FramesPerSecond * (size / 2) < rate
  {
    size := MinFftSize;
    ghost var k: nat := 0;
    while FramesPerSecond * size < rate
      invariant size == MinFftSize * Pow2(k)
      invariant StepsFrom(rate, k) == StepsFrom(rate, 0)
      invariant size == MinFftSize || FramesPerSecond * (size / 2) < rate
      decreases rate - FramesPerSecond * size
    {
      size := size * 2;
      k := k + 1;
    }
  }

  /** Pow2 is strictly increasing. */
  lemma {:induction false} Pow2Monotone(i: nat, j: nat)
    requires i < j
    ensures Pow2(i) < Pow2(j)
    decreases j
  {
    if i < j - 1 {
      Pow2Monotone(i, j - 1);
    }
  }

  /** The three properties of FftSize pin the size down: any buffer size that
      covers the rate and whose half does not is the reference size. */
  lemma FftSizeUnique(rate: int, size: int)
    requires IsBufferSize(size)
    requires FramesPerSecond * size >= rate
    requires size == MinFftSize || FramesPerSecond * (size / 2) < rate
    ensures size == FftSizeSpec(rate)
  {
    var k: nat :| size == MinFftSize * Pow2(k);
    var n := StepsFrom(rate, 0);
    if k < n {
      assert false;
    } else if k > n {
      var h := Pow2(k - 1);
      assert size / 2 == MinFftSize * h;
      CoversMonotone(rate, n, k - 1);
      assert false;
    }
  }

  /** Once a buffer covers the rate, every larger one does. */
  lemma CoversMonotone(rate: int, i: nat, j: nat)
    requires i <= j
    requires FramesPerSecond * (MinFftSize * Pow2(i)) >= rate
    ensures FramesPerSecond * (MinFftSize * Pow2(j)) >= rate
  {
    if i < j {
      Pow2Monotone(i, j);
    }
  }

  /** The sizes for the sample rates SampleRates.java settles on. */
  lemma CommonRates()
    ensures FftSizeSpec(22050) == 1024
    ensures FftSizeSpec(44100) == 2048
    ensures FftSizeSpec(48000) == 2048
  {
    assert StepsFrom(22050, 0) == 1;
    assert StepsFrom(44100, 0) == 2;
    assert StepsFrom(48000, 0) == 2;
  }

  // ------------------------------------------------ the loop as Java runs it

  /** Java's int arithmetic: the value modulo 2^32, read back as signed. */
  function Wrap32(x: int): (r: int)
    ensures IsInt32(r)
    ensures (x - r) % Int32Modulus == 0
    ensures IsInt32(x) ==> r == x
  {
    var m := x % Int32Modulus;
    if m < 0x8000_0000 then m else m - Int32Modulus
  }

  /** Values congruent modulo 2^32 are the same Java int. */
  lemma WrapCongruent(a: int, b: int)
    requires (a - b) % Int32Modulus == 0
    ensures Wrap32(a) == Wrap32(b)
  {
    var q := (a - b) / Int32Modulus;
    assert a == b + Int32Modulus * q;
    ModShift(b, q);
  }

  lemma ModShift(b: int, q: int)
    ensures (b + Int32Modulus * q) % Int32Modulus == b % Int32Modulus
  {
  }

  /** `24 * FFTSize < sampleRate` evaluated on 32-bit ints: it is the
      mathematical comparison while the product fits an int, and a product
      that has wrapped to zero or below passes any positive rate. */
  predicate GuardAsWritten(size: int, rate: int): (b: bool)
    ensures IsInt32(FramesPerSecond * size) ==> (b <==> FramesPerSecond * size < rate)
    ensures rate > 0 && Wrap32(FramesPerSecond * size) <= 0 ==> b
  {
    Wrap32(FramesPerSecond * size) < rate
  }

  /** FFTSize after k iterations of `FFTSize = FFTSize * 2` on 32-bit ints:
      the Java int that 512 * 2^k wraps to. */
  function SizeAfter(k: nat): (size: int)
    ensures IsInt32(size)
    ensures size == Wrap32(MinFftSize * Pow2(k))
  {
    if k == 0 then MinFftSize
    else
      var prev := SizeAfter(k - 1);
      WrapDouble(MinFftSize * Pow2(k - 1));
      Wrap32(prev * 2)
  }

  /** Doubling commutes with wrapping. */
  lemma WrapDouble(x: int)
    ensures Wrap32(Wrap32(x) * 2) == Wrap32(x * 2)
  {
    var w := Wrap32(x);
    DoubleCongruent(x, w);
    WrapCongruent(x * 2, w * 2);
  }

  lemma DoubleCongruent(a: int, b: int)
    requires (a - b) % Int32Modulus == 0
    ensures (a * 2 - b * 2) % Int32Modulus == 0
  {
    var q := (a - b) / Int32Modulus;
    assert a - b == Int32Modulus * q;
    assert a * 2 - b * 2 == 0 + Int32Modulus * (2 * q);
    ModShift(0, 2 * q);
  }

  lemma Pow2Table()
    ensures Pow2(17) == 131072 && Pow2(18) == 262144 && Pow2(19) == 524288
    ensures Pow2(20) == 1048576 && Pow2(21) == 2097152
  {
    assert Pow2(1) == 2 && Pow2(2) == 4 && Pow2(3) == 8 && Pow2(4) == 16;
    assert Pow2(5) == 32 && Pow2(6) == 64 && Pow2(7) == 128 && Pow2(8) == 256;
    assert Pow2(9) == 512 && Pow2(10) == 1024 && Pow2(11) == 2048 && Pow2(12) == 4096;
    assert Pow2(13) == 8192 && Pow2(14) == 16384 && Pow2(15) == 32768 && Pow2(16) == 65536;
  }

  /** Up to 21 doublings FFTSize stays within 2^30 and nothing wraps. */
  lemma {:induction false} SizeAfterSmall(k: nat)
    requires k <= 21
    ensures SizeAfter(k) == MinFftSize * Pow2(k)
    ensures SizeAfter(k) <= 0x4000_0000
  {
    Pow2Table();
    if k < 21 {
      Pow2Monotone(k, 21);
    }
    if k > 0 {
      SizeAfterSmall(k - 1);
      var prev := SizeAfter(k - 1);
      assert prev * 2 == MinFftSize * Pow2(k);
      assert IsInt32(prev * 2);
    }
  }

  /** The 22nd doubling reaches 2^31, which wraps to -2^31; the next gives 0. */
  lemma {:induction false} SizeAfterLarge(k: nat)
    requires k >= 22
    ensures SizeAfter(k) == if k == 22 then -0x8000_0000 else 0
  {
    if k == 22 {
      SizeAfterSmall(21);
      Pow2Table();
      assert SizeAfter(21) * 2 == 0x8000_0000;
    } else {
      SizeAfterLarge(k - 1);
    }
  }

  lemma WrapTable()
    ensures Wrap32(3221225472) == -1073741824
    ensures Wrap32(6442450944) == -2147483648
    ensures Wrap32(12884901888) == 0 && Wrap32(25769803776) == 0
    ensures Wrap32(-51539607552) == 0 && Wrap32(0) == 0
  {
  }

  /** FFTSize through the doublings where 24 * FFTSize first wraps. */
  lemma SizeAfterWrapping(k: nat)
    requires 18 <= k <= 21
    ensures SizeAfter(k) in {134217728, 268435456, 536870912, 1073741824}
  {
    SizeAfterSmall(k);
    Pow2Table();
    assert Pow2(k) in {262144, 524288, 1048576, 2097152};
  }

  /** Above 24 * 2^26 the product 24 * FFTSize wraps to a value that is not
      above zero, then FFTSize itself wraps to 0: every iteration finds the
      guard true, so the loop of Pitch.drawPitch never ends. */
  lemma AsWrittenNeverStops(rate: int, k: nat)
    requires IsInt32(rate) && rate > LargestSafeRate
    ensures GuardAsWritten(SizeAfter(k), rate)
  {
    WrapTable();
    if k <= 17 {
      SizeAfterSmall(k);
      Pow2Table();
      if k < 17 {
        Pow2Monotone(k, 17);
      }
      assert FramesPerSecond * SizeAfter(k) <= LargestSafeRate;
    } else if k <= 21 {
      SizeAfterWrapping(k);
    } else {
      SizeAfterLarge(k);
    }
  }

  /** The concrete witness: at the largest int sample rate the as-written
      loop is still running after any number of iterations. */
  lemma LargestIntRateNeverStops(k: nat)
    ensures GuardAsWritten(SizeAfter(k), 0x7FFF_FFFF)
  {
    AsWrittenNeverStops(0x7FFF_FFFF, k);
  }

  /** Up to 24 * 2^26 no product wraps, and the Java loop stops exactly after
      the reference number of doublings, with the reference size. */
  lemma AsWrittenAgreesBelowOverflow(rate: int)
    requires rate <= LargestSafeRate
    ensures var n := StepsFrom(rate, 0);
      && (forall j | 0 <= j < n :: GuardAsWritten(SizeAfter(j), rate))
      && !GuardAsWritten(SizeAfter(n), rate)
      && SizeAfter(n) == FftSizeSpec(rate)
  {
    var n := StepsFrom(rate, 0);
    Pow2Table();
    assert n <= 17;
    forall j | 0 <= j <= n
      ensures SizeAfter(j) == MinFftSize * Pow2(j)
      ensures Wrap32(FramesPerSecond * SizeAfter(j)) == FramesPerSecond * (MinFftSize * Pow2(j))
    {
      SizeAfterSmall(j);
      if j < 17 {
        Pow2Monotone(j, 17);
      }
    }
  }
}

=== FILE: filter_pitch.dfy ===
/** Pitch.FilterPitch: the three clean-up passes run one after the other on
    the contour measured so far. */
module FilterPitch {
  import opened PitchTypes
  import opened RangeWindow
  import opened RangeBand
  import opened SlewRate
  import opened Silence

  /** Reference definition. There is no result for the empty contour: Java's
      `litr.next()` before the pass-2 loop throws on an empty list. */
  function FilterSpec(xs: Contour, ln: real -> real): Option<Contour> {
    if xs == [] then None
    else Some(SilenceSpec(SlewFilter(RangePass(xs), ln)))
  }

  /** Pitch.FilterPitch, step by step as the source runs it; the exception on
      an empty intermediate list becomes None. */
  method Filter(xs: Contour, ln: real -> real) returns (r: Option<Contour>)
    ensures r == FilterSpec(xs, ln)
    ensures r.None? <==> xs == []
    ensures r.Some? ==> Clean(r.value) && Subseq(r.value, xs)
  {
    var freq := Sort(VoicedFreqs(xs));
    var w := SelectWindow(freq);
    var dta0 := BandFilter(xs, w);
    RangePassNonEmpty(xs);
    if dta0 == [] {
      return None;
    }
    var dta1 := SlewPass(dta0, ln);
    var dta2 := SilencePass(dta1);
    r := Some(dta2);
    FilterSpecShape(xs, ln);
  }

  lemma {:induction false} VoicedFreqWitness(xs: Contour, x: real)
    requires x in VoicedFreqs(xs)
    ensures exists k | 0 <= k < |xs| :: !IsSilent(xs[k]) && xs[k].f == x
    decreases |xs|
  {
    if !IsSilent(xs[0]) && xs[0].f == x {
    } else {
      assert x in VoicedFreqs(xs[1..]);
      VoicedFreqWitness(xs[1..], x);
      var k :| 0 <= k < |xs[1..]| && !IsSilent(xs[1..][k]) && xs[1..][k].f == x;
      assert xs[k + 1] == xs[1..][k];
    }
  }

  /** The chosen lower cutoff is a measured frequency inside its own band. */
  lemma WindowLowMeasured(freq: seq<real>)
    requires freq != [] && Sorted(freq)
    ensures BestWindow(freq).low in freq
    ensures BestWindow(freq).low <= BestWindow(freq).high
  {
    var w := BestWindow(freq);
    BestWindowCharacterised(freq);
    if w.count != -1 {
      var b :| ChosenAt(freq, b, w) &&
        forall a, j | 0 <= a < b && Feasible(freq, a, j) :: j - a + 1 < w.count;
      assert w.low == freq[b];
    }
  }

  /** Pass 1 never empties a non-empty contour: silences always pass, and the
      chosen cutoffs are themselves measured frequencies. */
  lemma RangePassNonEmpty(xs: Contour)
    ensures xs != [] ==> RangePass(xs) != []
  {
    if xs != [] {
      var v := VoicedFreqs(xs);
      var freq := Sort(v);
      var w := BestWindow(freq);
      if IsSilent(xs[0]) {
        assert InBand(xs[0], w);
      } else {
        assert v[0] == xs[0].f;
        assert freq != [];
        WindowLowMeasured(freq);
        var x := w.low;
        assert x in multiset(freq);
        assert x in v;
        VoicedFreqWitness(xs, x);
        var k :| 0 <= k < |xs| && !IsSilent(xs[k]) && xs[k].f == x;
        assert InBand(xs[k], w);
      }
    }
  }

  /** The filtered contour is an order-preserving selection of the input
      samples with no silent pair and no silent first or last sample. */
  lemma FilterSpecShape(xs: Contour, ln: real -> real)
    ensures FilterSpec(xs, ln).None? <==> xs == []
    ensures FilterSpec(xs, ln).Some? ==>
      var ys := FilterSpec(xs, ln).value;
      Clean(ys) && Subseq(ys, xs) && (TimeOrdered(xs) ==> TimeOrdered(ys))
  {
    if xs != [] {
      var p1 := RangePass(xs);
      var p2 := SlewFilter(p1, ln);
      var ys := SilenceSpec(p2);
      SilenceSpecClean(p2);
      SilenceSpecKeepsVoiced(p2);
      SlewFilterKeeps(p1, ln);
      SubseqTrans(ys, p2, p1);
      SubseqTrans(ys, p1, xs);
      if TimeOrdered(xs) {
        SubseqTimeOrdered(ys, xs);
      }
    }
  }

  /** Any two voiced samples are less than max_pitch_range apart as a ratio. */
  ghost predicate VoicedWithinRatio(ys: Contour) {
    forall i, j | 0 <= i < |ys| && 0 <= j < |ys| && !IsSilent(ys[i]) && !IsSilent(ys[j]) ::
      ys[j].f < MaxPitchRange * ys[i].f
  }

  /** With positive pitches, any two voiced samples of the filtered contour
      are less than max_pitch_range (3.32) apart as a frequency ratio. */
  lemma FilterSpecWithinRange(xs: Contour, ln: real -> real)
    requires forall k | 0 <= k < |xs| && !IsSilent(xs[k]) :: xs[k].f > 0.0
    ensures FilterSpec(xs, ln).Some? ==> VoicedWithinRatio(FilterSpec(xs, ln).value)
  {
    if xs != [] {
      var v := VoicedFreqs(xs);
      var freq := Sort(v);
      var w := BestWindow(freq);
      var p1 := RangePass(xs);
      var p2 := SlewFilter(p1, ln);
      var ys := SilenceSpec(p2);
      SilenceSpecKeepsVoiced(p2);
      SlewFilterKeeps(p1, ln);
      SubseqTrans(ys, p2, p1);
      BandMembers(xs, w);
      SubseqMembers(ys, p1);
      if v != [] {
        PositiveVoicedFreqs(xs);
        PositiveSorted(v, freq);
        BestWindowRatio(freq);
        InBandWithinRatio(ys, w);
      } else {
        SubseqTrans(ys, p1, xs);
        AllSilentWithinRatio(ys, xs);
      }
    }
  }

  lemma BandMembers(xs: Contour, w: Window)
    ensures forall p | p in BandFilter(xs, w) :: InBand(p, w)
  {
  }

  lemma PositiveSorted(v: seq<real>, freq: seq<real>)
    requires multiset(v) == multiset(freq)
    requires forall x | x in v :: x > 0.0
    ensures forall k | 0 <= k < |freq| :: freq[k] > 0.0
  {
    forall k | 0 <= k < |freq| ensures freq[k] > 0.0 {
      assert freq[k] in multiset(v);
      assert freq[k] in v;
    }
  }

  lemma AllSilentWithinRatio(ys: Contour, xs: Contour)
    requires Subseq(ys, xs) && VoicedFreqs(xs) == []
    ensures VoicedWithinRatio(ys)
  {
    NoVoicedFreqsNoVoiced(xs);
    SubseqMembers(ys, xs);
  }

  /** On positive frequencies the chosen window is admissible: its bounds are
      positive and less than max_pitch_range apart. */
  lemma BestWindowRatio(freq: seq<real>)
    requires freq != [] && forall k | 0 <= k < |freq| :: freq[k] > 0.0
    ensures BestWindow(freq).low > 0.0
    ensures BestWindow(freq).high < MaxPitchRange * BestWindow(freq).low
  {
    var w := BestWindow(freq);
    assert Feasible(freq, 0, 0);
    BestWindowCharacterised(freq);
    var b :| ChosenAt(freq, b, w) &&
      forall a, j | 0 <= a < b && Feasible(freq, a, j) :: j - a + 1 < w.count;
  }

  lemma InBandWithinRatio(ys: Contour, w: Window)
    requires w.low > 0.0 && w.high < MaxPitchRange * w.low
    requires forall p | p in ys :: InBand(p, w)
    ensures VoicedWithinRatio(ys)
  {
    forall i, j | 0 <= i < |ys| && 0 <= j < |ys| && !IsSilent(ys[i]) && !IsSilent(ys[j])
      ensures ys[j].f < MaxPitchRange * ys[i].f
    {
      assert InBand(ys[i], w) && InBand(ys[j], w);
      assert MaxPitchRange * w.low <= MaxPitchRange * ys[i].f;
    }
  }

  lemma {:induction false} PositiveVoicedFreqs(xs: Contour)
    requires forall k | 0 <= k < |xs| && !IsSilent(xs[k]) :: xs[k].f > 0.0
    ensures forall x | x in VoicedFreqs(xs) :: x > 0.0
    decreases |xs|
  {
    if xs != [] {
      PositiveVoicedFreqs(xs[1..]);
    }
  }

  lemma {:induction false} NoVoicedFreqsNoVoiced(xs: Contour)
    requires VoicedFreqs(xs) == []
    ensures forall p | p in xs :: IsSilent(p)
    decreases |xs|
  {
    if xs != [] {
      NoVoicedFreqsNoVoiced(xs[1..]);
      assert xs == [xs[0]] + xs[1..];
    }
  }
}

=== FILE: filter_scenarios.dfy ===
/** Worked inputs for Pitch.FilterPitch, following the code as written. */
module FilterScenarios {
  import opened PitchTypes
  import opened RangeWindow
  import opened RangeBand
  import opened SlewRate
  import opened Silence
  import opened FilterPitch

  /** Pass 1 on a contour whose voiced frequencies, sorted, are `freq`. */
  lemma RangePassVia(xs: Contour, v: seq<real>, freq: seq<real>)
    requires VoicedFreqs(xs) == v
    requires Sorted(freq) && multiset(v) == multiset(freq)
    ensures RangePass(xs) == BandFilter(xs, BestWindow(freq))
  {
    SortedArrangementUnique(Sort(v), freq);
  }

  function OutlierInput(): Contour {
    [Sample(0.0, 100.0), Sample(0.1, 105.0), Sample(0.2, -1.0),
     Sample(0.3, -1.0), Sample(0.4, 108.0), Sample(0.5, 500.0)]
  }

  lemma OutlierWindow()
    ensures BestWindow([100.0, 105.0, 108.0, 500.0]) == Window(100.0, 108.0, 3)
  {
    var freq := [100.0, 105.0, 108.0, 500.0];
    assert LastFeasible(freq, 0, 3) == 2;
    assert LastFeasible(freq, 1, 3) == 2;
    assert LastFeasible(freq, 2, 3) == 2;
    assert LastFeasible(freq, 3, 3) == 3;
    var w := Window(100.0, 108.0, 3);
    assert Step(freq, 0, InitialWindow(freq)) == w;
    assert Step(freq, 1, w) == w && Step(freq, 2, w) == w && Step(freq, 3, w) == w;
  }

  lemma OutlierVoiced()
    ensures VoicedFreqs(OutlierInput()) == [100.0, 105.0, 108.0, 500.0]
  {
    var xs := OutlierInput();
    assert VoicedFreqs(xs[5..]) == [500.0];
    assert VoicedFreqs(xs[4..]) == [108.0, 500.0];
    assert VoicedFreqs(xs[3..]) == [108.0, 500.0];
    assert VoicedFreqs(xs[2..]) == [108.0, 500.0];
    assert VoicedFreqs(xs[1..]) == [105.0, 108.0, 500.0];
  }

  lemma OutlierBand()
    ensures BandFilter(OutlierInput(), Window(100.0, 108.0, 3)) == OutlierInput()[..5]
  {
    var xs := OutlierInput();
    var w := Window(100.0, 108.0, 3);
    assert BandFilter(xs[5..], w) == [];
    assert BandFilter(xs[4..], w) == [xs[4]];
    assert BandFilter(xs[3..], w) == xs[3..5];
    assert BandFilter(xs[2..], w) == xs[2..5];
    assert BandFilter(xs[1..], w) == xs[1..5];
  }

  lemma OutlierPass1()
    ensures RangePass(OutlierInput()) == OutlierInput()[..5]
  {
    var freq := [100.0, 105.0, 108.0, 500.0];
    OutlierVoiced();
    RangePassVia(OutlierInput(), freq, freq);
    OutlierWindow();
    OutlierBand();
  }

  lemma OutlierPass2(ln: real -> real)
    requires IsLog(ln)
    ensures SlewFilter(OutlierInput()[..5], ln) == OutlierInput()[..5]
  {
    var p1 := OutlierInput()[..5];
    assert ln(1.05) <= 0.05;
    assert CheckSlewRate(p1[0], p1[1], ln);
    assert !Dropped(p1, 1, ln) && !Dropped(p1, 2, ln) && !Dropped(p1, 3, ln);
    assert KeptFrom(p1, 5, ln) == [];
    assert KeptFrom(p1, 4, ln) == p1[4..];
    assert KeptFrom(p1, 3, ln) == p1[3..];
    assert KeptFrom(p1, 2, ln) == p1[2..];
    assert KeptFrom(p1, 1, ln) == p1[1..];
  }

  lemma OutlierPass3()
    ensures SilenceSpec(OutlierInput()[..5])
         == [Sample(0.0, 100.0), Sample(0.1, 105.0), Sample(0.2, -1.0), Sample(0.4, 108.0)]
  {
    var p := OutlierInput()[..5];
    assert CollapseFrom(p[5..], false) == [];
    assert CollapseFrom(p[4..], true) == [p[4]];
    assert CollapseFrom(p[3..], true) == [p[4]];
    assert CollapseFrom(p[2..], false) == [p[2], p[4]];
    assert CollapseFrom(p[1..], false) == [p[1], p[2], p[4]];
  }

  /** A 500 Hz outlier among ~100 Hz samples falls outside every admissible
      window and is dropped by pass 1; the two silent samples collapse into
      one. Timestamps are kept as measured. */
  lemma OutlierAndSilence(ln: real -> real)
    requires IsLog(ln)
    ensures FilterSpec(OutlierInput(), ln)
         == Some([Sample(0.0, 100.0), Sample(0.1, 105.0), Sample(0.2, -1.0), Sample(0.4, 108.0)])
  {
    OutlierPass1();
    OutlierPass2(ln);
    OutlierPass3();
  }

  lemma ClearedBySilencePass(ys: Contour)
    requires forall k | 0 <= k < |ys| :: !IsSilent(ys[k])
    ensures SilenceSpec(ys) == ys
  {
    SilenceSpecFixedIff(ys);
  }

  function HighSpikeInput(): Contour {
    [Sample(0.0, 100.0), Sample(0.02, 800.0), Sample(0.04, 102.0)]
  }

  lemma SortedThree(x: real, y: real, z: real)
    requires x <= y <= z
    ensures Sorted([x, y, z])
  {
  }

  lemma SwapLastTwo(x: real, y: real, z: real)
    ensures multiset([x, y, z]) == multiset([x, z, y])
  {
    assert [x, y, z] == [x] + [y] + [z] && [x, z, y] == [x] + [z] + [y];
  }

  lemma HighSpikeWindow()
    ensures BestWindow([100.0, 102.0, 800.0]) == Window(100.0, 102.0, 2)
  {
    var freq := [100.0, 102.0, 800.0];
    assert LastFeasible(freq, 0, 2) == 1;
    assert LastFeasible(freq, 1, 2) == 1;
    assert LastFeasible(freq, 2, 2) == 2;
    var w := Window(100.0, 102.0, 2);
    assert Step(freq, 0, InitialWindow(freq)) == w;
    assert Step(freq, 1, w) == w && Step(freq, 2, w) == w;
  }

  lemma HighSpikePass1()
    ensures RangePass(HighSpikeInput()) == [Sample(0.0, 100.0), Sample(0.04, 102.0)]
  {
    HighSpikeVoiced();
    SwapLastTwo(100.0, 800.0, 102.0);
    SortedThree(100.0, 102.0, 800.0);
    RangePassVia(HighSpikeInput(), [100.0, 800.0, 102.0], [100.0, 102.0, 800.0]);
    HighSpikeWindow();
    HighSpikeBand();
  }

  lemma HighSpikeVoiced()
    ensures VoicedFreqs(HighSpikeInput()) == [100.0, 800.0, 102.0]
  {
    var xs := HighSpikeInput();
    assert VoicedFreqs(xs[2..]) == [102.0];
  }

  lemma HighSpikeBand()
    ensures BandFilter(HighSpikeInput(), Window(100.0, 102.0, 2))
         == [Sample(0.0, 100.0), Sample(0.04, 102.0)]
  {
    var xs := HighSpikeInput();
    var w := Window(100.0, 102.0, 2);
    assert BandFilter(xs[2..], w) == [xs[2]];
    assert BandFilter(xs[1..], w) == [xs[2]];
  }

  /** An 800 Hz spike between ~100 Hz samples is eight times the base pitch,
      beyond the 3.32 ratio of any admissible window, so pass 1 already
      removes it; pass 2 then has nothing to do. */
  lemma HighSpikeDroppedByRange(ln: real -> real)
    requires IsLog(ln)
    ensures FilterSpec(HighSpikeInput(), ln) == Some([Sample(0.0, 100.0), Sample(0.04, 102.0)])
  {
    HighSpikePass1();
    TwoVoicedPass23([Sample(0.0, 100.0), Sample(0.04, 102.0)], ln);
    FilterSpecVia(HighSpikeInput(), [Sample(0.0, 100.0), Sample(0.04, 102.0)],
      [Sample(0.0, 100.0), Sample(0.04, 102.0)], ln);
  }

  /** Two voiced samples pass passes 2 and 3 unchanged. */
  lemma TwoVoicedPass23(p1: Contour, ln: real -> real)
    requires |p1| == 2 && !IsSilent(p1[0]) && !IsSilent(p1[1])
    ensures SilenceSpec(SlewFilter(p1, ln)) == p1
  {
    SlewFilterShort(p1, ln);
    ClearedBySilencePass(p1);
  }

  lemma FilterSpecVia(xs: Contour, p1: Contour, out: Contour, ln: real -> real)
    requires xs != [] && RangePass(xs) == p1 && SilenceSpec(SlewFilter(p1, ln)) == out
    ensures FilterSpec(xs, ln) == Some(out)
  {
  }

  function LowSpikeInput(): Contour {
    [Sample(0.0, 100.0), Sample(0.02, 300.0), Sample(0.04, 102.0)]
  }

  lemma LowSpikeWindow()
    ensures BestWindow([100.0, 102.0, 300.0]) == Window(100.0, 300.0, 3)
  {
    var freq := [100.0, 102.0, 300.0];
    assert LastFeasible(freq, 0, 2) == 2;
    var w := Window(100.0, 300.0, 3);
    assert Step(freq, 0, InitialWindow(freq)) == w;
    assert Step(freq, 1, w) == w && Step(freq, 2, w) == w;
  }

  lemma LowSpikePass1()
    ensures RangePass(LowSpikeInput()) == LowSpikeInput()
  {
    LowSpikeVoiced();
    SwapLastTwo(100.0, 300.0, 102.0);
    SortedThree(100.0, 102.0, 300.0);
    RangePassVia(LowSpikeInput(), [100.0, 300.0, 102.0], [100.0, 102.0, 300.0]);
    LowSpikeWindow();
    LowSpikeBand();
  }

  lemma LowSpikeVoiced()
    ensures VoicedFreqs(LowSpikeInput()) == [100.0, 300.0, 102.0]
  {
    var xs := LowSpikeInput();
    assert VoicedFreqs(xs[2..]) == [102.0];
  }

  lemma LowSpikeBand()
    ensures BandFilter(LowSpikeInput(), Window(100.0, 300.0, 3)) == LowSpikeInput()
  {
    var xs := LowSpikeInput();
    var w := Window(100.0, 300.0, 3);
    assert BandFilter(xs[2..], w) == xs[2..];
    assert BandFilter(xs[1..], w) == xs[1..];
  }

  lemma SpikeFreePass3()
    ensures SilenceSpec([Sample(0.0, 100.0), Sample(0.04, 102.0)])
         == [Sample(0.0, 100.0), Sample(0.04, 102.0)]
  {
    ClearedBySilencePass([Sample(0.0, 100.0), Sample(0.04, 102.0)]);
  }

  lemma LowSpikePass2(ln: real -> real)
    requires IsLog(ln)
    ensures SlewFilter(LowSpikeInput(), ln) == [Sample(0.0, 100.0), Sample(0.04, 102.0)]
  {
    var xs := LowSpikeInput();
    assert 1.0 - 1.0 / 3.0 <= ln(3.0);
    assert 1.0 - 1.0 / (300.0 / 102.0) <= ln(300.0 / 102.0);
    assert Dropped(xs, 1, ln);
    assert KeptFrom(xs, 3, ln) == [];
    assert KeptFrom(xs, 2, ln) == [xs[2]];
    assert KeptFrom(xs, 1, ln) == [xs[2]];
  }

  /** A 300 Hz spike stays within the admissible ratio, so pass 1 keeps it;
      the rise to it and the fall from it, each within 20 ms, are both too
      fast for a voice, so pass 2 removes it. */
  lemma LowSpikeDroppedBySlew(ln: real -> real)
    requires IsLog(ln)
    ensures FilterSpec(LowSpikeInput(), ln) == Some([Sample(0.0, 100.0), Sample(0.04, 102.0)])
  {
    LowSpikePass1();
    LowSpikePass2(ln);
    SpikeFreePass3();
  }

  /** A single voiced sample comes back unchanged, timestamp included. */
  lemma SingleSample(ln: real -> real)
    ensures FilterSpec([Sample(5.0, 220.0)], ln) == Some([Sample(5.0, 220.0)])
  {
    var xs := [Sample(5.0, 220.0)];
    RangePassVia(xs, [220.0], [220.0]);
    assert LastFeasible([220.0], 0, 0) == 0;
    assert BestWindow([220.0]) == Window(220.0, 220.0, 1);
    assert RangePass(xs) == xs;
    SlewFilterShort(xs, ln);
    ClearedBySilencePass(xs);
  }

  /** Pass 2 does not clear the verdict after a drop: two neighbouring samples
      that each jump too fast in and out are both removed, although the second
      one, compared with the sample kept before it, would return to its pitch. */
  lemma ConsecutiveGlitchesBothDropped(ln: real -> real)
    requires IsLog(ln)
    ensures SlewFilter([Sample(0.0, 100.0), Sample(0.001, 150.0), Sample(0.002, 100.0),
                        Sample(0.003, 150.0)], ln)
         == [Sample(0.0, 100.0), Sample(0.003, 150.0)]
    ensures CheckSlewRate(Sample(0.0, 100.0), Sample(0.002, 100.0), ln)
  {
    var xs := [Sample(0.0, 100.0), Sample(0.001, 150.0), Sample(0.002, 100.0),
               Sample(0.003, 150.0)];
    assert 1.0 - 1.0 / 1.5 <= ln(1.5);
    assert Dropped(xs, 1, ln) && Dropped(xs, 2, ln);
    assert KeptFrom(xs, 4, ln) == [];
    assert KeptFrom(xs, 3, ln) == [xs[3]];
    assert KeptFrom(xs, 2, ln) == [xs[3]];
    assert KeptFrom(xs, 1, ln) == [xs[3]];
  }
}

=== FILE: graph.dfy ===
/** The pure parts of the pitch graph in pitch.js: the y-axis range chosen
    by graph_draw and the shift to time 0 done by pinyin2graph. JavaScript's
    `null` is `None`; where the code compares or subtracts with a `null`,
    the value counts as 0, as JavaScript's ToNumber makes it. */
module Graph {
  import opened PitchTypes

  /** A plotted point [t, y]; `y` is `null` where there is no pitch. */
  datatype Point = Point(x: real, y: Option<real>)

  /** The least height the graph is drawn with, in the units of the plotted
      values. Those are frequencies in Hz (FilterPitch's output), so this is
      12 Hz, although the comment beside the code calls it an octave of
      12 semitones. */
  const MinSpan: real := 12.0

  /** ToNumber of a number-or-null. */
  function JsNum(v: Option<real>): real {
    if v.None? then 0.0 else v.value
  }

  /** The first loop of graph_draw rewrites each -1 frequency to null. */
  function Nulled(data: Contour): (pts: seq<Point>)
    ensures |pts| == |data|
    ensures forall i | 0 <= i < |data| :: pts[i].x == data[i].t
    ensures forall i | 0 <= i < |data| :: pts[i].y.None? <==> IsSilent(data[i])
    ensures forall i | 0 <= i < |data| :: pts[i].y.Some? ==> pts[i].y.value == data[i].f
  {
    seq(|data|, i requires 0 <= i < |data| =>
      Point(data[i].t, if IsSilent(data[i]) then None else Some(data[i].f)))
  }

  /** The non-null y values, in order. */
  function Values(pts: seq<Point>): (vs: seq<real>)
    ensures |vs| <= |pts|
  {
    if pts == [] then []
    else (if pts[0].y.None? then [] else [pts[0].y.value]) + Values(pts[1..])
  }

  /** `lo` and `hi` are the least and greatest of `vs`, or both null when
      `vs` is empty. */
  ghost predicate RangeOf(lo: Option<real>, hi: Option<real>, vs: seq<real>) {
    if vs == [] then lo.None? && hi.None?
    else
      && lo.Some? && hi.Some?
      && lo.value in vs && hi.value in vs
      && (forall k | 0 <= k < |vs| :: lo.value <= vs[k] <= hi.value)
  }

  /** One pass of graph_draw's min/max loop over `pts`, starting from the
      extremes found so far. */
  method Widen(pts: seq<Point>, ghost seen: seq<real>, lo0: Option<real>, hi0: Option<real>)
    returns (lo: Option<real>, hi: Option<real>)
    requires RangeOf(lo0, hi0, seen)
    ensures RangeOf(lo, hi, seen + Values(pts))
  {
    lo, hi := lo0, hi0;
    var i := 0;
    while i < |pts|
      invariant 0 <= i <= |pts|
      invariant RangeOf(lo, hi, seen + Values(pts[..i]))
    {
      var y := pts[i].y;
      ghost var lo1, hi1 := lo, hi;
      if y.Some? && (hi.None? || y.value > hi.value) {
        hi := y;
      }
      if y.Some? && (lo.None? || y.value < lo.value) {
        lo := y;
      }
      WidenLoopStep(pts, seen, i, lo1, hi1, lo, hi);
      i := i + 1;
    }
    assert pts[..|pts|] == pts;
  }

  /** One iteration of the min/max loop keeps the extremes of what it has
      seen so far. */
  lemma WidenStep(lo: Option<real>, hi: Option<real>, seen: seq<real>, p: Point,
                  lo': Option<real>, hi': Option<real>)
    requires RangeOf(lo, hi, seen)
    requires hi' == if p.y.Some? && (hi.None? || p.y.value > hi.value) then p.y else hi
    requires lo' == if p.y.Some? && (lo.None? || p.y.value < lo.value) then p.y else lo
    ensures RangeOf(lo', hi', seen + Values([p]))
  {
    assert Values([p]) == if p.y.None? then [] else [p.y.value];
    if p.y.None? {
      assert seen + [] == seen;
    } else {
      var vs := seen + [p.y.value];
      assert lo'.value in vs && hi'.value in vs;
    }
  }

  lemma WidenLoopStep(pts: seq<Point>, seen: seq<real>, i: int,
                      lo: Option<real>, hi: Option<real>, lo': Option<real>, hi': Option<real>)
    requires 0 <= i < |pts| && RangeOf(lo, hi, seen + Values(pts[..i]))
    requires hi' == if pts[i].y.Some? && (hi.None? || pts[i].y.value > hi.value) then pts[i].y else hi
    requires lo' == if pts[i].y.Some? && (lo.None? || pts[i].y.value < lo.value) then pts[i].y else lo
    ensures RangeOf(lo', hi', seen + Values(pts[..i + 1]))
  {
    ValuesSnoc(pts, i);
    WidenStep(lo, hi, seen + Values(pts[..i]), pts[i], lo', hi');
    assert seen + Values(pts[..i + 1]) == seen + Values(pts[..i]) + Values([pts[i]]);
  }

  lemma ValuesSnoc(pts: seq<Point>, i: int)
    requires 0 <= i < |pts|
    ensures Values(pts[..i + 1]) == Values(pts[..i]) + Values([pts[i]])
  {
    assert pts[..i + 1] == pts[..i] + [pts[i]];
    ValuesAppend(pts[..i], [pts[i]]);
  }

  lemma {:induction false} ValuesAppend(a: seq<Point>, b: seq<Point>)
    ensures Values(a + b) == Values(a) + Values(b)
    decreases |a|
  {
    if a == [] {
      assert a + b == b;
    } else {
      assert (a + b)[1..] == a[1..] + b;
      ValuesAppend(a[1..], b);
    }
  }

  /** Every value the graph shows: the pitch track and, when pinyin is
      given, its stylised tone contour. */
  function Shown(data: Contour, pinyin: Option<seq<Point>>): seq<real> {
    Values(Nulled(data)) + (if pinyin.None? then [] else Values(pinyin.value))
  }

  /** Both min/max loops of graph_draw: over the pitch track, then over the
      tone contour when there is one. */
  method ShownRange(data: Contour, pinyin: Option<seq<Point>>) returns (lo: Option<real>, hi: Option<real>)
    ensures RangeOf(lo, hi, Shown(data, pinyin))
  {
    lo, hi := Widen(Nulled(data), [], None, None);
    assert [] + Values(Nulled(data)) == Values(Nulled(data));
    if pinyin.Some? {
      lo, hi := Widen(pinyin.value, Values(Nulled(data)), lo, hi);
    } else {
      assert Values(Nulled(data)) + [] == Values(Nulled(data));
    }
  }

  /** `if (ymin > ymax - 12) { ymin = ymax - 12; }`, nulls read as 0. */
  function FloorAsWritten(lo: Option<real>, hi: Option<real>): (ymin: real)
    ensures JsNum(hi) - ymin >= MinSpan
    ensures ymin <= JsNum(lo)
    ensures ymin == JsNum(hi) - MinSpan || ymin == JsNum(lo)
  {
    if JsNum(lo) > JsNum(hi) - MinSpan then JsNum(hi) - MinSpan else JsNum(lo)
  }

  /** The y range of graph_draw. ymax is the greatest shown value (null when
      nothing is shown) and ymin the least, lowered so that at least 12 Hz
      are drawn; with nothing shown, `null > null - 12` holds and ymin
      becomes -12. */
  method GraphRange(data: Contour, pinyin: Option<seq<Point>>) returns (ymin: real, ymax: Option<real>)
    ensures ymax.None? <==> Shown(data, pinyin) == []
    ensures ymax.Some? ==> ymax.value in Shown(data, pinyin)
    ensures forall k | 0 <= k < |Shown(data, pinyin)| :: Shown(data, pinyin)[k] <= JsNum(ymax)
    ensures JsNum(ymax) - ymin >= MinSpan
    ensures forall k | 0 <= k < |Shown(data, pinyin)| :: ymin <= Shown(data, pinyin)[k]
    ensures ymin == JsNum(ymax) - MinSpan || ymin in Shown(data, pinyin)
    ensures Shown(data, pinyin) == [] ==> ymin == -MinSpan
  {
    var lo, hi := ShownRange(data, pinyin);
    ymax := hi;
    ymin := FloorAsWritten(lo, hi);
  }

  /** Whenever the top of the graph is above 24 Hz, the floor of 12 Hz below
      it leaves less than an octave (a factor of 2) on screen unless the data
      itself spans one. */
  lemma TwelveHzFloorFallsShortOfOctave(lo: real, hi: real)
    requires 24.0 < hi && hi < 2.0 * lo && lo <= hi
    ensures 2.0 * FloorAsWritten(Some(lo), Some(hi)) > hi
  {
  }

  /** A voice between 200 and 210 Hz is drawn from 198 Hz, much less than
      the octave down to 105 Hz. */
  lemma TypicalVoiceShowsLessThanOctave()
    ensures FloorAsWritten(Some(200.0), Some(210.0)) == 198.0
    ensures 2.0 * 198.0 > 210.0
  {
  }

  /** The floor the comments ask for: an octave down from the top is half
      its frequency. */
  function FloorOctave(lo: Option<real>, hi: Option<real>): (ymin: real)
    ensures ymin <= JsNum(lo)
    ensures 2.0 * ymin <= JsNum(hi)
    ensures 2.0 * ymin == JsNum(hi) || ymin == JsNum(lo)
  {
    if JsNum(lo) > JsNum(hi) / 2.0 then JsNum(hi) / 2.0 else JsNum(lo)
  }

  /** graph_draw with the octave floor: the same ymax, and a ymin at most
      half of it, so the graph spans at least an octave of frequency. */
  method GraphRangeOctave(data: Contour, pinyin: Option<seq<Point>>) returns (ymin: real, ymax: Option<real>)
    ensures ymax.None? <==> Shown(data, pinyin) == []
    ensures ymax.Some? ==> ymax.value in Shown(data, pinyin)
    ensures forall k | 0 <= k < |Shown(data, pinyin)| :: Shown(data, pinyin)[k] <= JsNum(ymax)
    ensures 2.0 * ymin <= JsNum(ymax)
    ensures forall k | 0 <= k < |Shown(data, pinyin)| :: ymin <= Shown(data, pinyin)[k]
    ensures 2.0 * ymin == JsNum(ymax) || ymin in Shown(data, pinyin)
  {
    var lo, hi := ShownRange(data, pinyin);
    ymax := hi;
    ymin := FloorOctave(lo, hi);
  }

  /** The pitch track's null points are exactly its silent samples, so the
      values it contributes are its voiced frequencies. */
  lemma {:induction false} NulledValues(data: Contour)
    ensures Values(Nulled(data)) == VoicedFreqs(data)
    decreases |data|
  {
    if data != [] {
      assert Nulled(data)[1..] == Nulled(data[1..]);
      NulledValues(data[1..]);
    }
  }

  /** The extremes of a list of values are determined by its values alone. */
  lemma RangeUnique(lo: Option<real>, hi: Option<real>, lo': Option<real>, hi': Option<real>, vs: seq<real>)
    requires RangeOf(lo, hi, vs) && RangeOf(lo', hi', vs)
    ensures lo == lo' && hi == hi'
  {
    if vs != [] {
      var a :| 0 <= a < |vs| && vs[a] == lo.value;
      var b :| 0 <= b < |vs| && vs[b] == lo'.value;
      var c :| 0 <= c < |vs| && vs[c] == hi.value;
      var d :| 0 <= d < |vs| && vs[d] == hi'.value;
    }
  }

  /** Silent samples do not move the graph's range: a pitch track with
      extra -1 samples shows the same values as one without. */
  lemma SilenceDoesNotMoveRange(data: Contour, data': Contour, pinyin: Option<seq<Point>>)
    requires VoicedFreqs(data) == VoicedFreqs(data')
    ensures Shown(data, pinyin) == Shown(data', pinyin)
  {
    NulledValues(data);
    NulledValues(data');
  }

  // -------------------------------------------------------- begin at time 0

  /** The contour shifted so that it begins at time 0, as pinyin2graph
      leaves it. */
  function Rebased(pts: seq<Point>): (r: seq<Point>)
    ensures |r| == |pts|
  {
    if pts == [] then []
    else seq(|pts|, i requires 0 <= i < |pts| => Point(pts[i].x - pts[0].x, pts[i].y))
  }

  /** The loop at the end of pinyin2graph: the first time is read once, then
      subtracted from every point in turn. */
  method Rebase(pts: seq<Point>) returns (r: seq<Point>)
    ensures |r| == |pts|
    ensures r != [] ==> r[0].x == 0.0
    ensures forall i | 0 <= i < |r| :: r[i].y == pts[i].y
    ensures forall i, j | 0 <= i < |r| && 0 <= j < |r| :: r[j].x - r[i].x == pts[j].x - pts[i].x
    ensures r == Rebased(pts)
  {
    r := pts;
    if |pts| != 0 {
      var begin := pts[0].x;
      var i := 0;
      while i < |r|
        invariant 0 <= i <= |r| == |pts|
        invariant forall k | 0 <= k < i :: r[k] == Point(pts[k].x - begin, pts[k].y)
        invariant forall k | i <= k < |r| :: r[k] == pts[k]
      {
        r := r[i := Point(r[i].x - begin, r[i].y)];
        i := i + 1;
      }
    }
  }

  /** Moving every time by the same amount: what an earlier start changes. */
  function Shifted(pts: seq<Point>, c: real): (r: seq<Point>)
    ensures |r| == |pts|
    ensures forall i | 0 <= i < |pts| :: r[i] == Point(pts[i].x + c, pts[i].y)
  {
    seq(|pts|, i requires 0 <= i < |pts| => Point(pts[i].x + c, pts[i].y))
  }

  /** The rebased contour is the unique shift of the input that starts at 0. */
  lemma RebasedIsTheShiftToZero(pts: seq<Point>, c: real)
    requires pts != [] && Shifted(pts, c)[0].x == 0.0
    ensures Rebased(pts) == Shifted(pts, c)
  {
  }

  /** Where the contour started does not matter. */
  lemma RebasedShiftInvariant(pts: seq<Point>, c: real)
    ensures Rebased(Shifted(pts, c)) == Rebased(pts)
  {
  }

  /** A contour already beginning at 0 is left as it is. */
  lemma RebasedIdempotent(pts: seq<Point>)
    ensures Rebased(Rebased(pts)) == Rebased(pts)
  {
  }
}

=== FILE: pinyin.dfy ===
/** marks2numbers of pitch.js: tone-marked pinyin to tone-number pinyin by a
    fixed, ordered table of replace-all rewrites on the lower-cased string. */
module Pinyin {

  // ------------------------------------------------------------ lower case

  /** String.prototype.toLowerCase on the characters pinyin can contain:
      ASCII, Latin-1, Latin Extended-A and the caron vowels of Latin
      Extended-B. Every other character is left as it is, and so is U+0130,
      which JavaScript lowers to the two characters U+0069 U+0307. */
  function LowerChar(c: char): (r: char)
    ensures 'A' <= c <= 'Z' ==> r as int == c as int + 32
    ensures !IsUpper(c) ==> r == c
  {
    if IsUpper(c) then Lowered(c) else c
  }

  predicate IsUpper(c: char) {
    || 'A' <= c <= 'Z'
    || ('\U{C0}' <= c <= '\U{DE}' && c != '\U{D7}')
    || ('\U{100}' <= c <= '\U{12F}' && c as int % 2 == 0)
    || ('\U{132}' <= c <= '\U{137}' && c as int % 2 == 0)
    || ('\U{139}' <= c <= '\U{148}' && c as int % 2 == 1)
    || ('\U{14A}' <= c <= '\U{177}' && c as int % 2 == 0)
    || c == '\U{178}'
    || ('\U{179}' <= c <= '\U{17E}' && c as int % 2 == 1)
    || ('\U{1CD}' <= c <= '\U{1DC}' && c as int % 2 == 1)
  }

  function Lowered(c: char): char
    requires IsUpper(c)
  {
    if c <= '\U{DE}' then (c as int + 32) as char
    else if c == '\U{178}' then '\U{FF}'
    else (c as int + 1) as char
  }

  function LowerStr(s: string): (r: string)
    ensures |r| == |s|
    ensures forall i | 0 <= i < |s| :: r[i] == LowerChar(s[i])
  {
    seq(|s|, i requires 0 <= i < |s| => LowerChar(s[i]))
  }

  /** Lower case is already lower case. */
  lemma LowerCharIdempotent(c: char)
    ensures !IsUpper(LowerChar(c))
    ensures LowerChar(LowerChar(c)) == LowerChar(c)
  {
  }

  lemma LowerStrIdempotent(s: string)
    ensures LowerStr(LowerStr(s)) == LowerStr(s)
  {
    forall i | 0 <= i < |s| ensures LowerStr(LowerStr(s))[i] == LowerStr(s)[i] {
      LowerCharIdempotent(s[i]);
    }
  }

  // ------------------------------------------------------------- the table

  datatype Vowel = A | E | I | O | U | Yu

  /** The tone-marked forms of a vowel in the order the table lists them:
      tone 1, tone 2, tone 3 with breve, tone 3 with caron, tone 4. For ü the
      list is ü, ǘ, ǚ, ǜ, the bare ü standing for tone 1. */
  function Marks(v: Vowel): (r: seq<char>)
    ensures |r| == if v == Yu then 4 else 5
  {
    match v
    case A => ['\U{101}', '\U{E1}', '\U{103}', '\U{1CE}', '\U{E0}']
    case E => ['\U{113}', '\U{E9}', '\U{115}', '\U{11B}', '\U{E8}']
    case I => ['\U{12B}', '\U{ED}', '\U{12D}', '\U{1D0}', '\U{EC}']
    case O => ['\U{14D}', '\U{F3}', '\U{14F}', '\U{1D2}', '\U{F2}']
    case U => ['\U{16B}', '\U{FA}', '\U{16D}', '\U{1D4}', '\U{F9}']
    case Yu => ['\U{FC}', '\U{1D8}', '\U{1DA}', '\U{1DC}']
  }

  /** The tone digit written for each entry of Marks. */
  function ToneDigits(v: Vowel): (r: string)
    ensures |r| == |Marks(v)|
  {
    if v == Yu then "1234" else "12334"
  }

  /** The plain letters the vowel is written with in tone-number form. */
  function Plain(v: Vowel): string {
    match v
    case A => "a"
    case E => "e"
    case I => "i"
    case O => "o"
    case U => "u"
    case Yu => "uu"
  }

  /** A group of five (for ü four) consecutive rules: the final `pre`, a
      marked vowel, `suf`. */
  datatype Family = Family(pre: string, vowel: Vowel, suf: string)

  /** The rule families of marks2numbers in table order, longest first. */
  const Families: seq<Family> := [
    Family("u", A, "ng"),   // pitch.js:97-101
    Family("i", O, "ng"),   // pitch.js:102-106
    Family("i", A, "ng"),   // pitch.js:107-111
    Family("", Yu, "an"),   // pitch.js:112-115
    Family("u", A, "n"),    // pitch.js:116-120
    Family("u", A, "i"),    // pitch.js:121-125
    Family("", I, "ng"),    // pitch.js:126-130
    Family("i", A, "n"),    // pitch.js:131-135
    Family("i", A, "o"),    // pitch.js:136-140
    Family("", O, "ng"),    // pitch.js:141-145
    Family("", E, "ng"),    // pitch.js:146-150
    Family("", A, "ng"),    // pitch.js:151-155
    Family("", Yu, "e"),    // pitch.js:156-159
    Family("", U, "n"),     // pitch.js:160-164
    Family("u", I, ""),     // pitch.js:165-169
    Family("u", O, ""),     // pitch.js:170-174
    Family("u", A, ""),     // pitch.js:175-179
    Family("", I, "n"),     // pitch.js:180-184
    Family("i", U, ""),     // pitch.js:185-189
    Family("i", E, ""),     // pitch.js:190-194
    Family("i", A, ""),     // pitch.js:195-199
    Family("", E, "n"),     // pitch.js:200-204
    Family("", A, "n"),     // pitch.js:205-209
    Family("", O, "u"),     // pitch.js:210-214
    Family("", A, "o"),     // pitch.js:215-219
    Family("", E, "i"),     // pitch.js:220-224
    Family("", A, "i"),     // pitch.js:225-229
    Family("", E, "r"),     // pitch.js:230-234
    Family("", Yu, ""),     // pitch.js:235-238
    Family("", A, ""),      // pitch.js:239-243
    Family("", E, ""),      // pitch.js:244-248
    Family("", I, ""),      // pitch.js:249-253
    Family("", O, ""),      // pitch.js:254-258
    Family("", U, "")       // pitch.js:259-263
  ]

  /** The searched text of rule m of family f. */
  function Pattern(f: Family, m: nat): string
    requires m < |Marks(f.vowel)|
  {
    f.pre + [Marks(f.vowel)[m]] + f.suf
  }

  /** Its replacement: the tone digit ends the syllable, except after ü,
      where it follows the "uu" directly. */
  function Replacement(f: Family, m: nat): string
    requires m < |Marks(f.vowel)|
  {
    if f.vowel == Yu then f.pre + Plain(Yu) + [ToneDigits(Yu)[m]] + f.suf
    else f.pre + Plain(f.vowel) + f.suf + [ToneDigits(f.vowel)[m]]
  }

  function PatLen(f: Family): nat {
    |f.pre| + 1 + |f.suf|
  }

  // ------------------------------------------------------ replace-all

  /** `p` occurs in `s` at position k. */
  predicate MatchAt(p: string, s: string, k: int) {
    0 <= k && k + |p| <= |s| && s[k..k + |p|] == p
  }

  ghost predicate Occurs(p: string, s: string) {
    exists k :: MatchAt(p, s, k)
  }

  /** `s.replace(/p/g, r)` for a literal pattern: matches are taken left to
      right and do not overlap. */
  function ReplaceAll(s: string, p: string, r: string): (out: string)
    requires p != []
    ensures forall c | c in out :: c in s || c in r
    ensures |p| == 1 && p[0] !in r ==> p[0] !in out
    decreases |s|
  {
    if |s| < |p| then s
    else if s[..|p|] == p then
      var rest := ReplaceAll(s[|p|..], p, r);
      assert forall c | c in s[|p|..] :: c in s;
      r + rest
    else
      var rest := ReplaceAll(s[1..], p, r);
      assert forall c | c in s[1..] :: c in s;
      assert |p| == 1 ==> s[0] != p[0] by {
        if |p| == 1 { assert s[..1] == [s[0]]; }
      }
      [s[0]] + rest
  }

  /** The rules of one family, from entry m on. */
  function ApplyFamily(s: string, f: Family, m: nat): string
    decreases |Marks(f.vowel)| - m
  {
    if m >= |Marks(f.vowel)| then s
    else ApplyFamily(ReplaceAll(s, Pattern(f, m), Replacement(f, m)), f, m + 1)
  }

  /** The rules of the given families, in order. */
  function ApplyFamilies(s: string, fams: seq<Family>): string
    decreases |fams|
  {
    if fams == [] then s else ApplyFamilies(ApplyFamily(s, fams[0], 0), fams[1..])
  }

  /** marks2numbers. None of the table's 24 marked characters (IsMark)
      survives it: each is removed at the latest by the rules of its bare
      vowel near the end of the table. The tone-one ǖ, which the table
      lacks, does survive (ToneOneYuSurvives). */
  function Marks2Numbers(str: string): (r: string)
    ensures MarkFree(r)
  {
    MarksGone(LowerStr(str));
    ApplyFamilies(LowerStr(str), Families)
  }

  // ------------------------------------------------- facts about the table

  /** One of the table's 24 tone-marked characters; ǖ is not among them. */
  predicate IsMark(c: char) {
    c in Marks(A) || c in Marks(E) || c in Marks(I) || c in Marks(O) || c in Marks(U) || c in Marks(Yu)
  }

  ghost predicate MarkFree(s: string) {
    forall i | 0 <= i < |s| :: !IsMark(s[i])
  }

  ghost predicate LowerAscii(s: string) {
    forall i | 0 <= i < |s| :: 'a' <= s[i] <= 'z'
  }

  /** The unmarked letters around the vowel are plain lower-case ASCII. */
  ghost predicate WellFormed(f: Family) {
    LowerAscii(f.pre) && LowerAscii(f.suf)
  }

  lemma MarkIsMark(v: Vowel, m: nat)
    requires m < |Marks(v)|
    ensures IsMark(Marks(v)[m])
    ensures !IsUpper(Marks(v)[m])
  {
  }

  /** Every marked vowel is a different character. */
  lemma MarkInjective(v: Vowel, m: nat, w: Vowel, n: nat)
    requires m < |Marks(v)| && n < |Marks(w)|
    requires Marks(v)[m] == Marks(w)[n]
    ensures v == w && m == n
  {
  }

  lemma MarksAreHigh(c: char)
    requires IsMark(c)
    ensures c >= '\U{E0}'
  {
  }

  lemma FamiliesWellFormed()
    ensures forall k | 0 <= k < |Families| :: WellFormed(Families[k])
  {
  }

  /** The table lists longer patterns first ... */
  lemma FamiliesLongestFirst()
    ensures forall k | 0 <= k < |Families| - 1 :: PatLen(Families[k]) >= PatLen(Families[k + 1])
  {
  }

  /** ... and no family twice. */
  lemma FamiliesDistinct()
    ensures forall i, j | 0 <= i < j < |Families| :: Families[i] != Families[j]
  {
  }

  lemma {:induction false} LongestFirstAll(i: int, j: int)
    requires 0 <= i <= j < |Families|
    ensures PatLen(Families[i]) >= PatLen(Families[j])
    decreases j - i
  {
    if i < j {
      FamiliesLongestFirst();
      LongestFirstAll(i, j - 1);
    }
  }

  // ------------------------------------------------- replace-all facts

  lemma OccursShift(p: string, s: string)
    requires s != [] && Occurs(p, s[1..])
    ensures Occurs(p, s)
  {
    var k :| MatchAt(p, s[1..], k);
    assert s[1..][k..k + |p|] == s[k + 1..k + 1 + |p|];
    assert MatchAt(p, s, k + 1);
  }

  /** A pattern that does not occur leaves the string unchanged. */
  lemma {:induction false} ReplaceAllAbsent(s: string, p: string, r: string)
    requires p != [] && !Occurs(p, s)
    ensures ReplaceAll(s, p, r) == s
    decreases |s|
  {
    if |s| >= |p| {
      assert !MatchAt(p, s, 0);
      assert s[0..|p|] == s[..|p|];
      if Occurs(p, s[1..]) {
        OccursShift(p, s);
      }
      ReplaceAllAbsent(s[1..], p, r);
      assert s == [s[0]] + s[1..];
    }
  }

  /** The pattern alone is replaced by the replacement. */
  lemma ReplaceAllWhole(p: string, r: string)
    requires p != []
    ensures ReplaceAll(p, p, r) == r
  {
    assert p[..|p|] == p && p[|p|..] == [];
    assert ReplaceAll([], p, r) == [];
  }

  /** A pattern holding a marked vowel cannot occur in a mark-free string. */
  lemma MarkFreeAbsent(s: string, p: string, i: int)
    requires MarkFree(s) && 0 <= i < |p| && IsMark(p[i])
    ensures !Occurs(p, s)
  {
    forall k ensures !MatchAt(p, s, k) {
      if 0 <= k && k + |p| <= |s| {
        assert s[k..k + |p|][i] == s[k + i];
      }
    }
  }

  lemma PatternShape(f: Family, m: nat)
    requires m < |Marks(f.vowel)|
    ensures |Pattern(f, m)| == PatLen(f)
    ensures Pattern(f, m)[|f.pre|] == Marks(f.vowel)[m]
    ensures IsMark(Pattern(f, m)[|f.pre|])
    ensures Pattern(f, m)[..|f.pre|] == f.pre
    ensures Pattern(f, m)[|f.pre| + 1..] == f.suf
  {
    MarkIsMark(f.vowel, m);
  }

  /** Replacements are plain ASCII: no later rule can touch them. */
  lemma ReplacementMarkFree(f: Family, m: nat)
    requires WellFormed(f) && m < |Marks(f.vowel)|
    ensures MarkFree(Replacement(f, m))
  {
    var r := Replacement(f, m);
    forall i | 0 <= i < |r| ensures !IsMark(r[i]) {
      if IsMark(r[i]) {
        MarksAreHigh(r[i]);
      }
    }
  }

  lemma {:induction false} ApplyFamilyMarkFree(s: string, f: Family, m: nat)
    requires MarkFree(s)
    ensures ApplyFamily(s, f, m) == s
    decreases |Marks(f.vowel)| - m
  {
    if m < |Marks(f.vowel)| {
      PatternShape(f, m);
      MarkFreeAbsent(s, Pattern(f, m), |f.pre|);
      ReplaceAllAbsent(s, Pattern(f, m), Replacement(f, m));
      ApplyFamilyMarkFree(s, f, m + 1);
    }
  }

  lemma {:induction false} ApplyFamiliesMarkFree(s: string, fams: seq<Family>)
    requires MarkFree(s)
    ensures ApplyFamilies(s, fams) == s
    decreases |fams|
  {
    if fams != [] {
      ApplyFamilyMarkFree(s, fams[0], 0);
      ApplyFamiliesMarkFree(s, fams[1..]);
    }
  }

  /** Replacements are plain ASCII. */
  lemma ReplacementAscii(f: Family, m: nat)
    requires WellFormed(f) && m < |Marks(f.vowel)|
    ensures forall i | 0 <= i < |Replacement(f, m)| :: Replacement(f, m)[i] < '\U{80}'
  {
  }

  /** A family's rules never bring back an absent non-ASCII character, a
      marked vowel in particular. */
  lemma {:induction false} ApplyFamilyKeepsAbsent(s: string, f: Family, m: nat, c: char)
    requires WellFormed(f) && c >= '\U{80}' && c !in s
    ensures c !in ApplyFamily(s, f, m)
    decreases |Marks(f.vowel)| - m
  {
    if m < |Marks(f.vowel)| {
      ReplacementAscii(f, m);
      var t := ReplaceAll(s, Pattern(f, m), Replacement(f, m));
      assert c !in t;
      ApplyFamilyKeepsAbsent(t, f, m + 1, c);
    }
  }

  lemma {:induction false} ApplyFamiliesKeepsAbsent(s: string, fams: seq<Family>, c: char)
    requires forall k | 0 <= k < |fams| :: WellFormed(fams[k])
    requires c >= '\U{80}' && c !in s
    ensures c !in ApplyFamilies(s, fams)
    decreases |fams|
  {
    if fams != [] {
      ApplyFamilyKeepsAbsent(s, fams[0], 0, c);
      ApplyFamiliesKeepsAbsent(ApplyFamily(s, fams[0], 0), fams[1..], c);
    }
  }

  /** The family of a bare vowel, rule m on, removes every mark from m on. */
  lemma {:induction false} BareFamilyRemoves(s: string, v: Vowel, m: nat, j: nat)
    requires m <= j < |Marks(v)|
    ensures Marks(v)[j] !in ApplyFamily(s, Family("", v, ""), m)
    decreases |Marks(v)| - m
  {
    var f := Family("", v, "");
    var c := Marks(v)[j];
    MarkIsMark(v, j);
    MarksAreHigh(c);
    assert WellFormed(f);
    ReplacementMarkFree(f, m);
    var t := ReplaceAll(s, Pattern(f, m), Replacement(f, m));
    if m == j {
      assert Pattern(f, m) == [c];
      assert c !in Replacement(f, m);
      ApplyFamilyKeepsAbsent(t, f, m + 1, c);
    } else {
      BareFamilyRemoves(t, v, m + 1, j);
    }
  }

  /** In any well-formed rule list holding the bare family of v, no marked
      form of v is left. */
  lemma RemovedBy(s: string, fams: seq<Family>, fi: int, v: Vowel, j: nat)
    requires 0 <= fi < |fams| && fams[fi] == Family("", v, "") && j < |Marks(v)|
    requires forall k | 0 <= k < |fams| :: WellFormed(fams[k])
    ensures Marks(v)[j] !in ApplyFamilies(s, fams)
  {
    MarkIsMark(v, j);
    MarksAreHigh(Marks(v)[j]);
    assert fams == fams[..fi] + fams[fi..];
    ApplyFamiliesAppend(s, fams[..fi], fams[fi..]);
    var t := ApplyFamilies(s, fams[..fi]);
    BareFamilyRemoves(t, v, 0, j);
    assert fams[fi..][1..] == fams[fi + 1..];
    ApplyFamiliesKeepsAbsent(ApplyFamily(t, fams[fi], 0), fams[fi + 1..], Marks(v)[j]);
  }

  lemma MarkWitness(c: char) returns (v: Vowel, j: nat)
    requires IsMark(c)
    ensures j < |Marks(v)| && Marks(v)[j] == c
  {
    v := if c in Marks(A) then A else if c in Marks(E) then E
      else if c in Marks(I) then I else if c in Marks(O) then O
      else if c in Marks(U) then U else Yu;
    j :| 0 <= j < |Marks(v)| && Marks(v)[j] == c;
  }

  /** The rule table, applied to any string, leaves none of its own 24
      marked characters (IsMark); ǖ, which it lacks, is not covered. */
  lemma MarksGone(s: string)
    ensures MarkFree(ApplyFamilies(s, Families))
  {
    var out := ApplyFamilies(s, Families);
    FamiliesWellFormed();
    forall i | 0 <= i < |out| ensures !IsMark(out[i]) {
      if IsMark(out[i]) {
        var v, j := MarkWitness(out[i]);
        var fi := BareFamily(v);
        RemovedBy(s, Families, fi, v, j);
        assert false;
      }
    }
  }

  /** A string without tone-marked vowels, once lower-cased, passes through
      every rule unchanged: marks2numbers only lower-cases it. */
  lemma NoMarksOnlyLowered(str: string)
    requires MarkFree(LowerStr(str))
    ensures Marks2Numbers(str) == LowerStr(str)
  {
    ApplyFamiliesMarkFree(LowerStr(str), Families);
  }

  /** Lower-casing first makes marks2numbers blind to case. */
  lemma Marks2NumbersIgnoresCase(str: string)
    ensures Marks2Numbers(LowerStr(str)) == Marks2Numbers(str)
  {
    LowerStrIdempotent(str);
  }

  // ------------------------------------------------ table order matters

  /** Outside the marked vowel a pattern is plain lower-case ASCII. */
  lemma PatternPlainElsewhere(f: Family, m: nat, j: int)
    requires WellFormed(f) && m < |Marks(f.vowel)|
    requires 0 <= j < PatLen(f) && j != |f.pre|
    ensures 'a' <= Pattern(f, m)[j] <= 'z'
  {
    if j < |f.pre| {
      assert Pattern(f, m)[j] == f.pre[j];
    } else {
      assert Pattern(f, m)[j] == f.suf[j - |f.pre| - 1];
    }
  }

  /** A pattern at least as long as another occurs in it only if it is the
      same rule: the marked vowels must line up, and the lengths leave no
      room for anything else. */
  lemma OnlyItselfMatches(g: Family, n: nat, f: Family, m: nat)
    requires WellFormed(f) && n < |Marks(g.vowel)| && m < |Marks(f.vowel)|
    requires PatLen(g) >= PatLen(f)
    ensures Occurs(Pattern(g, n), Pattern(f, m)) ==> g == f && n == m
  {
    if Occurs(Pattern(g, n), Pattern(f, m)) {
      var p := Pattern(g, n);
      var s := Pattern(f, m);
      var k :| MatchAt(p, s, k);
      PatternShape(g, n);
      PatternShape(f, m);
      assert k == 0 && p == s;
      var i := |g.pre|;
      MarksAreHigh(s[i]);
      if i != |f.pre| {
        PatternPlainElsewhere(f, m, i);
      }
      assert i == |f.pre|;
      MarkInjective(g.vowel, n, f.vowel, m);
      assert g.pre == p[..i] == s[..i] == f.pre;
      assert g.suf == p[i + 1..] == s[i + 1..] == f.suf;
    }
  }

  /** No rule of family g finds anything in s. */
  ghost predicate Untouched(s: string, g: Family) {
    forall n | 0 <= n < |Marks(g.vowel)| :: !Occurs(Pattern(g, n), s)
  }

  lemma {:induction false} ApplyFamilyUntouched(s: string, g: Family, m: nat)
    requires Untouched(s, g)
    ensures ApplyFamily(s, g, m) == s
    decreases |Marks(g.vowel)| - m
  {
    if m < |Marks(g.vowel)| {
      ReplaceAllAbsent(s, Pattern(g, m), Replacement(g, m));
      ApplyFamilyUntouched(s, g, m + 1);
    }
  }

  lemma {:induction false} ApplyFamiliesUntouched(s: string, fams: seq<Family>)
    requires forall k | 0 <= k < |fams| :: Untouched(s, fams[k])
    ensures ApplyFamilies(s, fams) == s
    decreases |fams|
  {
    if fams != [] {
      ApplyFamilyUntouched(s, fams[0], 0);
      ApplyFamiliesUntouched(s, fams[1..]);
    }
  }

  lemma {:induction false} ApplyFamiliesAppend(s: string, a: seq<Family>, b: seq<Family>)
    ensures ApplyFamilies(s, a + b) == ApplyFamilies(ApplyFamilies(s, a), b)
    decreases |a|
  {
    if a == [] {
      assert a + b == b;
    } else {
      assert (a + b)[0] == a[0] && (a + b)[1..] == a[1..] + b;
      ApplyFamiliesAppend(ApplyFamily(s, a[0], 0), a[1..], b);
    }
  }

  /** Within its own family a pattern is rewritten by its own rule only: the
      entries before it have other marked vowels, and the entries after it
      find only plain letters. */
  lemma {:induction false} ApplyFamilyFrom(f: Family, m: nat, j: nat)
    requires WellFormed(f) && j <= m < |Marks(f.vowel)|
    ensures ApplyFamily(Pattern(f, m), f, j) == Replacement(f, m)
    decreases m - j
  {
    var p := Pattern(f, m);
    if j < m {
      OnlyItselfMatches(f, j, f, m);
      ReplaceAllAbsent(p, Pattern(f, j), Replacement(f, j));
      ApplyFamilyFrom(f, m, j + 1);
    } else {
      PatternShape(f, m);
      ReplaceAllWhole(p, Replacement(f, m));
      ReplacementMarkFree(f, m);
      ApplyFamilyMarkFree(Replacement(f, m), f, m + 1);
    }
  }

  lemma PatternIsLower(f: Family, m: nat)
    requires WellFormed(f) && m < |Marks(f.vowel)|
    ensures LowerStr(Pattern(f, m)) == Pattern(f, m)
  {
    var p := Pattern(f, m);
    PatternShape(f, m);
    MarkIsMark(f.vowel, m);
    forall j | 0 <= j < |p| ensures LowerChar(p[j]) == p[j] {
      if j != |f.pre| {
        PatternPlainElsewhere(f, m, j);
      }
    }
  }

  lemma EarlierFamiliesUntouched(fi: int, m: nat)
    requires 0 <= fi < |Families| && m < |Marks(Families[fi].vowel)|
    ensures forall k | 0 <= k < fi :: Untouched(Pattern(Families[fi], m), Families[k])
  {
    var f := Families[fi];
    var p := Pattern(f, m);
    FamiliesWellFormed();
    FamiliesDistinct();
    forall k | 0 <= k < fi ensures Untouched(p, Families[k]) {
      LongestFirstAll(k, fi);
      forall n | 0 <= n < |Marks(Families[k].vowel)| ensures !Occurs(Pattern(Families[k], n), p) {
        OnlyItselfMatches(Families[k], n, f, m);
      }
    }
  }

  lemma FamilyWellFormed(fi: int)
    requires 0 <= fi < |Families|
    ensures WellFormed(Families[fi])
  {
    FamiliesWellFormed();
  }

  /** In any rule list, a pattern that no earlier family touches is
      rewritten by its own rule and then left alone by the rest. */
  lemma RewriteAt(fams: seq<Family>, fi: int, m: nat)
    requires 0 <= fi < |fams| && m < |Marks(fams[fi].vowel)| && WellFormed(fams[fi])
    requires forall k | 0 <= k < fi :: Untouched(Pattern(fams[fi], m), fams[k])
    ensures ApplyFamilies(Pattern(fams[fi], m), fams) == Replacement(fams[fi], m)
  {
    var f := fams[fi];
    var p := Pattern(f, m);
    var r := Replacement(f, m);
    assert fams == fams[..fi] + fams[fi..];
    ApplyFamiliesAppend(p, fams[..fi], fams[fi..]);
    ApplyFamiliesUntouched(p, fams[..fi]);
    ApplyFamilyFrom(f, m, 0);
    ReplacementMarkFree(f, m);
    ApplyFamiliesMarkFree(r, fams[fi + 1..]);
    assert fams[fi..][1..] == fams[fi + 1..];
  }

  /** Every rule of the table does what it says: its pattern, on its own,
      comes out as its replacement. No earlier rule shadows it (earlier
      patterns are at least as long, hence occur only if identical), and no
      later rule touches the plain result. */
  lemma RuleRewritesToItsOwn(fi: int, m: nat)
    requires 0 <= fi < |Families| && m < |Marks(Families[fi].vowel)|
    ensures Marks2Numbers(Pattern(Families[fi], m)) == Replacement(Families[fi], m)
  {
    FamilyWellFormed(fi);
    PatternIsLower(Families[fi], m);
    EarlierFamiliesUntouched(fi, m);
    RewriteAt(Families, fi, m);
  }

  /** Any spelling of a rule's pattern, in any letter case, comes out as
      that rule's replacement. */
  lemma MarkedSyllable(str: string, fi: int, m: nat)
    requires 0 <= fi < |Families| && m < |Marks(Families[fi].vowel)|
    requires LowerStr(str) == Pattern(Families[fi], m)
    ensures Marks2Numbers(str) == Replacement(Families[fi], m)
  {
    RuleRewritesToItsOwn(fi, m);
    FamilyWellFormed(fi);
    PatternIsLower(Families[fi], m);
  }

  // ------------------------------------------------------------ examples

  /** "UĀNG" is lower-cased and rewritten whole by the first rule of the
      table, not through the "āng" or "ā" rules further down. */
  lemma UangIsUang1(str: string)
    requires str == "U\U{100}NG"
    ensures Marks2Numbers(str) == "uang1"
  {
    // The literal is passed as a parameter: written into the goal, it would
    // make the verifier unfold the whole rule table.
    FirstFamily();
    assert LowerStr(str) == "u\U{101}ng";
    MarkedSyllable(str, 0, 0);
  }

  lemma FirstFamily()
    ensures Families[0] == Family("u", A, "ng")
    ensures Pattern(Families[0], 0) == "u\U{101}ng"
    ensures Replacement(Families[0], 0) == "uang1"
  {
  }

  /** A marked ü on its own becomes "uu" and its tone digit; the bare ü
      counts as tone 1. */
  lemma YuTones(str: string, m: nat)
    requires m < 4 && str == [Marks(Yu)[m]]
    ensures Marks2Numbers(str) == "uu" + ["1234"[m]]
  {
    // The literal is passed as a parameter: written into the goal, it would
    // make the verifier unfold the whole rule table.
    YuFamily(m);
    MarkIsMark(Yu, m);
    MarkedSyllable(str, 28, m);
  }

  lemma YuFamily(m: nat)
    requires m < 4
    ensures Families[28] == Family("", Yu, "")
    ensures Pattern(Families[28], m) == [Marks(Yu)[m]]
    ensures Replacement(Families[28], m) == "uu" + ["1234"[m]]
  {
  }

  /** The ü of a longer final also writes its digit straight after "uu". */
  lemma YuanIsUu1an(str: string)
    requires str == "\U{FC}an"
    ensures Marks2Numbers(str) == "uu1an"
  {
    // The literal is passed as a parameter: written into the goal, it would
    // make the verifier unfold the whole rule table.
    YuanFamily();
    assert LowerStr(str) == str;
    MarkedSyllable(str, 3, 0);
  }

  lemma YuanFamily()
    ensures Families[3] == Family("", Yu, "an")
    ensures Pattern(Families[3], 0) == "\U{FC}an"
    ensures Replacement(Families[3], 0) == "uu1an"
  {
  }

  /** The bare vowels' families sit at the end of the table. */
  lemma BareFamily(v: Vowel) returns (fi: int)
    ensures 28 <= fi < |Families| && Families[fi] == Family("", v, "")
  {
    fi := match v
      case Yu => 28
      case A => 29
      case E => 30
      case I => 31
      case O => 32
      case U => 33;
  }

  lemma BareToneThree(v: Vowel, m: nat)
    requires v != Yu && (m == 2 || m == 3)
    ensures Pattern(Family("", v, ""), m) == [Marks(v)[m]]
    ensures Replacement(Family("", v, ""), m) == Plain(v) + "3"
  {
  }

  /** Both the breve and the caron spelling of a third tone give tone 3. */
  lemma BreveAndCaronAreTone3(str: string, v: Vowel, m: nat)
    requires v != Yu && (m == 2 || m == 3) && str == [Marks(v)[m]]
    ensures Marks2Numbers(str) == Plain(v) + "3"
  {
    // The literal is passed as a parameter: written into the goal, it would
    // make the verifier unfold the whole rule table.
    var fi := BareFamily(v);
    BareToneThree(v, m);
    MarkIsMark(v, m);
    assert LowerStr(str) == Pattern(Families[fi], m);
    MarkedSyllable(str, fi, m);
  }

  // ------------------------------------------------------ tone-1 ü

  /** ǖ, the tone-1 ü with a macron. The table has no rule for it: its ü
      rules start from the bare ü (U+00FC). */
  const ToneOneYu: char := '\U{1D6}'

  /** Written as the table stands, ǖ (and Ǖ, which lower-cases to it) comes
      back unconverted, with its tone mark. */
  lemma ToneOneYuSurvives(str: string)
    requires str == "\U{1D5}"
    ensures Marks2Numbers(str) == [ToneOneYu]
  {
    // The literal is passed as a parameter: written into the goal, it would
    // make the verifier unfold the whole rule table.
    assert LowerStr(str) == [ToneOneYu];
    assert !IsMark(ToneOneYu);
    NoMarksOnlyLowered(str);
  }

  /** marks2numbers with the missing rule: ǖ is read as the bare ü, which
      the table already takes for tone 1, so "ǖ" gives "uu1" and "lǖe" gives
      "luu1e". No marked vowel of the table and no ǖ is left. */
  function Marks2NumbersCorrected(str: string): (r: string)
    ensures MarkFree(r)
    ensures ToneOneYu !in r
  {
    var s := ReplaceAll(LowerStr(str), [ToneOneYu], [BareYu]);
    CorrectedTable(s);
    ApplyFamilies(s, Families)
  }

  /** The bare ü, the first entry of Marks(Yu). */
  const BareYu: char := '\U{FC}'

  /** The table removes its own 24 marked characters and adds no ǖ. */
  lemma CorrectedTable(s: string)
    requires ToneOneYu !in s
    ensures MarkFree(ApplyFamilies(s, Families))
    ensures ToneOneYu !in ApplyFamilies(s, Families)
  {
    MarksGone(s);
    FamiliesWellFormed();
    ApplyFamiliesKeepsAbsent(s, Families, ToneOneYu);
  }

  /** On text without ǖ the corrected function is marks2numbers. */
  lemma CorrectedAgrees(str: string)
    requires ToneOneYu !in LowerStr(str)
    ensures Marks2NumbersCorrected(str) == Marks2Numbers(str)
  {
    var s := LowerStr(str);
    forall k ensures !MatchAt([ToneOneYu], s, k) {
      if 0 <= k && k + 1 <= |s| {
        assert s[k..k + 1][0] == s[k];
      }
    }
    ReplaceAllAbsent(s, [ToneOneYu], [BareYu]);
  }

  /** Ǖ, lower-cased to ǖ, now comes out as the tone-1 "uu1". */
  lemma CorrectedToneOneYu(str: string, out: string)
    requires str == "\U{1D5}" && out == "uu1"
    ensures Marks2NumbersCorrected(str) == out
  {
    // The literals are passed as parameters: written into the goal, they
    // would make the verifier unfold the whole rule table.
    ToneOneYuToBare(str);
    BareYuIsTone1([BareYu]);
    ToneOneDigit(out);
    CorrectedVia(str, [BareYu], out);
  }

  lemma ToneOneYuToBare(str: string)
    requires str == "\U{1D5}"
    ensures ReplaceAll(LowerStr(str), [ToneOneYu], [BareYu]) == [BareYu]
  {
    assert LowerStr(str) == [ToneOneYu];
    ReplaceAllWhole([ToneOneYu], [BareYu]);
  }

  lemma ToneOneDigit(out: string)
    requires out == "uu1"
    ensures "uu" + ["1234"[0]] == out
  {
  }

  lemma CorrectedVia(str: string, s: string, out: string)
    requires ReplaceAll(LowerStr(str), [ToneOneYu], [BareYu]) == s
    requires ApplyFamilies(s, Families) == out
    ensures Marks2NumbersCorrected(str) == out
  {
  }

  lemma BareYuIsTone1(u: string)
    requires u == [BareYu]
    ensures ApplyFamilies(u, Families) == "uu" + ["1234"[0]]
  {
    assert u == [Marks(Yu)[0]];
    assert LowerStr(u) == u;
    YuTones(u, 0);
  }
}

=== FILE: pitch_score.dfy ===
/** PitchScore.pitchSeries and pitchDistance: two recordings become time
    series of log-frequencies, compared by dynamic time warping. */
module PitchScore {
  import opened PitchTypes

  /** The parallel lists `timeStamps` and `freqInHz`. */
  datatype Series = Series(times: seq<real>, freqs: seq<real>)

  predicate Parallel(s: Series) {
    |s.times| == |s.freqs|
  }

  predicate IsEmpty(s: Series) {
    |s.times| == 0
  }

  /** `r` is the slice lo..hi of `s` in both lists, everything cut off in
      front of or behind it is "no frequency", and r neither starts nor ends
      with "no frequency". */
  ghost predicate IsTrimOf(r: Series, s: Series) {
    && Parallel(s) && Parallel(r)
    && (exists lo, hi :: TrimAt(r, s, lo, hi))
    && (r.freqs != [] ==> r.freqs[0] != NoPitch && r.freqs[|r.freqs| - 1] != NoPitch)
  }

  /** `r` is the slice lo..hi of `s` and only "no frequency" lies outside it. */
  ghost predicate TrimAt(r: Series, s: Series, lo: int, hi: int) {
    && Parallel(s)
    && 0 <= lo <= hi <= |s.freqs|
    && r.times == s.times[lo..hi] && r.freqs == s.freqs[lo..hi]
    && (forall k | 0 <= k < lo :: s.freqs[k] == NoPitch)
    && (forall k | hi <= k < |s.freqs| :: s.freqs[k] == NoPitch)
  }

  /** The two removal loops of pitchSeries: leading, then trailing "no
      frequency" entries go, always from both lists at once. */
  method TrimSilence(s: Series) returns (r: Series)
    requires Parallel(s)
    ensures IsTrimOf(r, s)
  {
    var lo := 0;
    while lo < |s.freqs| && s.freqs[lo] == NoPitch
      invariant 0 <= lo <= |s.freqs|
      invariant forall k | 0 <= k < lo :: s.freqs[k] == NoPitch
    {
      lo := lo + 1;
    }
    var hi := |s.freqs|;
    while hi > lo && s.freqs[hi - 1] == NoPitch
      invariant lo <= hi <= |s.freqs|
      invariant forall k | hi <= k < |s.freqs| :: s.freqs[k] == NoPitch
    {
      hi := hi - 1;
    }
    r := Series(s.times[lo..hi], s.freqs[lo..hi]);
    assert TrimAt(r, s, lo, hi);
    assert r.freqs != [] ==> r.freqs[0] == s.freqs[lo] && r.freqs[|r.freqs| - 1] == s.freqs[hi - 1];
  }

  /** The trimmed series is determined by its description: two trims of the
      same series are equal. */
  lemma TrimUnique(r1: Series, r2: Series, s: Series)
    requires IsTrimOf(r1, s) && IsTrimOf(r2, s)
    ensures r1 == r2
  {
    var lo1, hi1 :| TrimAt(r1, s, lo1, hi1);
    var lo2, hi2 :| TrimAt(r2, s, lo2, hi2);
    TrimEnds(r1, s, lo1, hi1);
    TrimEnds(r2, s, lo2, hi2);
    if lo1 < hi1 && lo2 < hi2 {
      assert lo1 == lo2 && hi1 == hi2;
    }
  }

  /** A non-empty trim starts at the first entry with a frequency and ends
      after the last; an empty one means there is no such entry. */
  lemma TrimEnds(r: Series, s: Series, lo: int, hi: int)
    requires IsTrimOf(r, s) && TrimAt(r, s, lo, hi)
    ensures lo < hi ==> s.freqs[lo] != NoPitch && s.freqs[hi - 1] != NoPitch
    ensures lo == hi ==> forall k | 0 <= k < |s.freqs| :: s.freqs[k] == NoPitch
  {
    if lo < hi {
      assert s.freqs[lo] == r.freqs[0] && s.freqs[hi - 1] == r.freqs[|r.freqs| - 1];
    }
  }

  /** A recording in which no pitch was ever found trims to nothing. */
  lemma AllSilentTrimsToEmpty(r: Series, s: Series)
    requires IsTrimOf(r, s)
    requires forall k | 0 <= k < |s.freqs| :: s.freqs[k] == NoPitch
    ensures IsEmpty(r)
  {
    var lo, hi :| TrimAt(r, s, lo, hi);
    TrimEnds(r, s, lo, hi);
  }

  /** The log step of pitchSeries, with Math.log10 passed in as `log10`:
      positive frequencies are replaced by their logarithm, everything else
      (the interior "no frequency" entries, zero) is left as it is. */
  method LogPositive(fs: seq<real>, log10: real -> real) returns (gs: seq<real>)
    ensures |gs| == |fs|
    ensures forall i | 0 <= i < |fs| && fs[i] > 0.0 :: gs[i] == log10(fs[i])
    ensures forall i | 0 <= i < |fs| && fs[i] <= 0.0 :: gs[i] == fs[i]
  {
    gs := fs;
    var i := 0;
    while i < |gs|
      invariant 0 <= i <= |gs| == |fs|
      invariant forall k | 0 <= k < i && fs[k] > 0.0 :: gs[k] == log10(fs[k])
      invariant forall k | 0 <= k < i && fs[k] <= 0.0 :: gs[k] == fs[k]
      invariant forall k | i <= k < |fs| :: gs[k] == fs[k]
    {
      if gs[i] > 0.0 {
        gs := gs[i := log10(gs[i])];
      }
      i := i + 1;
    }
  }

  /** A logarithm keeps the order of positive frequencies, so the log step
      keeps the order of the voiced part of a recording. */
  lemma LogPositiveKeepsOrder(fs: seq<real>, gs: seq<real>, log10: real -> real, i: int, j: int)
    requires forall x, y | 0.0 < x < y :: log10(x) < log10(y)
    requires |gs| == |fs|
    requires forall k | 0 <= k < |fs| && fs[k] > 0.0 :: gs[k] == log10(fs[k])
    requires 0 <= i < |fs| && 0 <= j < |fs| && 0.0 < fs[i] < fs[j]
    ensures gs[i] < gs[j]
  {
  }

  /** pitchSeries after the detector has run: trim, then take logarithms. */
  method PitchSeries(raw: Series, log10: real -> real) returns (r: Series)
    requires Parallel(raw)
    ensures Parallel(r)
    ensures exists trimmed :: (IsTrimOf(trimmed, raw) && r.times == trimmed.times &&
      forall i | 0 <= i < |r.freqs| ::
        r.freqs[i] == if trimmed.freqs[i] > 0.0 then log10(trimmed.freqs[i]) else trimmed.freqs[i])
  {
    var trimmed := TrimSilence(raw);
    var logs := LogPositive(trimmed.freqs, log10);
    r := Series(trimmed.times, logs);
  }

  /** pitchDistance. Each series is `None` when pitchSeries threw, and
      FastDTW.compare is passed in as `dtw`, `None` when it threw. The score
      is -1 for an empty series and, through the catch-all handler, for any
      exception on the way. */
  function PitchDistance(a: Option<Series>, b: Option<Series>, dtw: (Series, Series) -> Option<real>): (d: real)
    ensures a.None? || b.None? ==> d == -1.0
    ensures a.Some? && b.Some? && (IsEmpty(a.value) || IsEmpty(b.value)) ==> d == -1.0
    ensures a.Some? && b.Some? && !IsEmpty(a.value) && !IsEmpty(b.value) && dtw(a.value, b.value).None? ==> d == -1.0
    ensures d != -1.0 ==>
      a.Some? && b.Some? && !IsEmpty(a.value) && !IsEmpty(b.value) && dtw(a.value, b.value) == Some(d)
  {
    if a.None? || b.None? then -1.0
    else if IsEmpty(a.value) || IsEmpty(b.value) then -1.0
    else if dtw(a.value, b.value).None? then -1.0
    else dtw(a.value, b.value).value
  }

  /** A recording without any detected pitch scores -1, whatever the other
      recording and whatever the distance measure. */
  lemma SilentRecordingScoresMinusOne(raw: Series, a: Series, b: Option<Series>,
                                      dtw: (Series, Series) -> Option<real>)
    requires exists trimmed :: IsTrimOf(trimmed, raw) && a.times == trimmed.times
    requires forall k | 0 <= k < |raw.freqs| :: raw.freqs[k] == NoPitch
    ensures PitchDistance(Some(a), b, dtw) == -1.0
  {
    var trimmed :| IsTrimOf(trimmed, raw) && a.times == trimmed.times;
    AllSilentTrimsToEmpty(trimmed, raw);
  }
}

=== FILE: pitch_types.dfy ===
/** Shared vocabulary of the pitch-contour model: samples, contours, the
    "no pitch" sentinel, order-preserving subsequences, and the abstract
    logarithm that stands in for Java's Math.log. */
module PitchTypes {

  datatype Option<T> = None | Some(value: T)

  /** The in-band value a detector reports when it found no pitch. */
  const NoPitch: real := -1.0

  /** One (time in seconds, frequency in Hz) pair, `double[] {t, f}` in the source. */
  datatype Sample = Sample(t: real, f: real)

  type Contour = seq<Sample>

  predicate IsSilent(p: Sample) {
    p.f == NoPitch
  }

  /** Timestamps never decrease along the contour. */
  ghost predicate TimeOrdered(xs: Contour) {
    forall i, j | 0 <= i < j < |xs| :: xs[i].t <= xs[j].t
  }

  /** The frequencies of the voiced samples, in contour order. */
  function VoicedFreqs(xs: Contour): (r: seq<real>)
    ensures |r| <= |xs|
    ensures forall k | 0 <= k < |r| :: r[k] != NoPitch
  {
    if xs == [] then []
    else (if IsSilent(xs[0]) then [] else [xs[0].f]) + VoicedFreqs(xs[1..])
  }

  /** The voiced samples themselves, in contour order. */
  function VoicedSamples(xs: Contour): (r: Contour)
    ensures |r| <= |xs|
    ensures forall k | 0 <= k < |r| :: !IsSilent(r[k])
  {
    if xs == [] then []
    else (if IsSilent(xs[0]) then [] else [xs[0]]) + VoicedSamples(xs[1..])
  }

  /** `a` can be obtained from `b` by deleting elements. */
  predicate Subseq<T(==)>(a: seq<T>, b: seq<T>)
    decreases |b|
  {
    if b == [] then a == []
    else (a != [] && a[0] == b[0] && Subseq(a[1..], b[1..])) || Subseq(a, b[1..])
  }

  lemma {:induction false} SubseqRefl<T>(a: seq<T>)
    ensures Subseq(a, a)
    decreases |a|
  {
    if a != [] {
      SubseqRefl(a[1..]);
    }
  }

  lemma {:induction false} SubseqTrans<T>(a: seq<T>, b: seq<T>, c: seq<T>)
    requires Subseq(a, b) && Subseq(b, c)
    ensures Subseq(a, c)
    decreases |c|
  {
    if c == [] {
    } else if Subseq(b, c[1..]) {
      SubseqTrans(a, b, c[1..]);
    } else {
      assert b != [] && b[0] == c[0] && Subseq(b[1..], c[1..]);
      if a != [] && a[0] == b[0] && Subseq(a[1..], b[1..]) {
        SubseqTrans(a[1..], b[1..], c[1..]);
      } else {
        SubseqTrans(a, b[1..], c[1..]);
      }
    }
  }

  /** Every element of a subsequence is an element of the sequence. */
  lemma {:induction false} SubseqMembers<T>(a: seq<T>, b: seq<T>)
    requires Subseq(a, b)
    ensures forall x | x in a :: x in b
    decreases |b|
  {
    if b != [] {
      if a != [] && a[0] == b[0] && Subseq(a[1..], b[1..]) {
        SubseqMembers(a[1..], b[1..]);
        assert a == [a[0]] + a[1..];
      } else {
        SubseqMembers(a, b[1..]);
      }
    }
  }

  /** Deleting samples keeps timestamps ordered. */
  lemma {:induction false} SubseqTimeOrdered(a: Contour, b: Contour)
    requires Subseq(a, b) && TimeOrdered(b)
    ensures TimeOrdered(a)
    decreases |b|
  {
    if b != [] {
      assert TimeOrdered(b[1..]);
      if a != [] && a[0] == b[0] && Subseq(a[1..], b[1..]) {
        SubseqTimeOrdered(a[1..], b[1..]);
        SubseqMembers(a[1..], b[1..]);
        forall i, j | 0 <= i < j < |a| ensures a[i].t <= a[j].t {
          if i > 0 {
            assert a[i] == a[1..][i - 1] && a[j] == a[1..][j - 1];
          } else {
            assert a[j] == a[1..][j - 1];
            assert a[j] in b[1..];
          }
        }
      } else {
        SubseqTimeOrdered(a, b[1..]);
      }
    }
  }

  lemma {:induction false} VoicedSamplesAppend(a: Contour, b: Contour)
    ensures VoicedSamples(a + b) == VoicedSamples(a) + VoicedSamples(b)
    decreases |a|
  {
    if a == [] {
      assert a + b == b;
    } else {
      assert (a + b)[1..] == a[1..] + b;
      VoicedSamplesAppend(a[1..], b);
    }
  }

  lemma {:induction false} SubseqPrefix<T>(a: seq<T>, n: nat)
    requires n <= |a|
    ensures Subseq(a[..n], a)
    decreases |a|
  {
    if n == |a| {
      assert a[..n] == a;
      SubseqRefl(a);
    } else if n == 0 {
      SubseqOfEmpty(a);
    } else {
      assert a[..n][1..] == a[1..][..n - 1];
      SubseqPrefix(a[1..], n - 1);
    }
  }

  lemma {:induction false} SubseqOfEmpty<T>(a: seq<T>)
    ensures Subseq([], a)
    decreases |a|
  {
    if a != [] {
      SubseqOfEmpty(a[1..]);
    }
  }

  /** Java's Math.log, abstractly: strictly increasing on the positive reals
      and squeezed between the two standard bounds 1 - 1/x <= ln x <= x - 1. */
  ghost predicate IsLog(ln: real -> real) {
    && (forall x, y | 0.0 < x < y :: ln(x) < ln(y))
    && (forall x | 0.0 < x :: 1.0 - 1.0 / x <= ln(x) <= x - 1.0)
  }

  lemma LogOfOneIsZero(ln: real -> real)
    requires IsLog(ln)
    ensures ln(1.0) == 0.0
  {
  }

  lemma LogPositiveAboveOne(ln: real -> real, x: real)
    requires IsLog(ln) && x > 1.0
    ensures ln(x) > 0.0
  {
    LogOfOneIsZero(ln);
  }
}

=== FILE: range_window.dfy ===
/** Pass 1 of Pitch.FilterPitch: find the frequency band [cutoff_low, cutoff_high]
    that holds the most voiced samples while cutoff_high < 3.32 * cutoff_low,
    and drop the voiced samples outside it. */
module RangeWindow {
  import opened PitchTypes

  /** Pitch.java's safety_factor; 1 filters hard, 4 filters almost nothing. */
  const SafetyFactor: real := 1.66

  /** The widest admitted ratio between the highest and the lowest kept pitch:
      one octave (2.0) widened by the safety factor. */
  const MaxPitchRange: real := 2.0 * SafetyFactor

  ghost predicate Sorted(s: seq<real>) {
    forall i, j | 0 <= i < j < |s| :: s[i] <= s[j]
  }

  // ---------------------------------------------------------------- sorting

  /** Putting a value no larger than any element in front keeps a list sorted. */
  lemma SortedCons(a: real, s: seq<real>)
    requires Sorted(s)
    requires forall k | 0 <= k < |s| :: a <= s[k]
    ensures Sorted([a] + s)
  {
    forall i, j | 0 <= i < j < |[a] + s| ensures ([a] + s)[i] <= ([a] + s)[j] {
      if i > 0 {
        assert ([a] + s)[i] == s[i - 1];
      }
      assert ([a] + s)[j] == s[j - 1];
    }
  }

  /** Every element of a list that is a permutation of `s` plus `x` is
      bounded below by `lo` when `x` and all of `s` are. */
  lemma LowerBoundOfPermutation(lo: real, x: real, s: seq<real>, r: seq<real>)
    requires multiset(r) == multiset(s) + multiset{x}
    requires lo <= x && forall k | 0 <= k < |s| :: lo <= s[k]
    ensures forall k | 0 <= k < |r| :: lo <= r[k]
  {
    forall k | 0 <= k < |r| ensures lo <= r[k] {
      assert r[k] in multiset(r);
      if r[k] != x {
        assert r[k] in multiset(s);
        assert r[k] in s;
      }
    }
  }

  function Insert(x: real, s: seq<real>): (r: seq<real>)
    requires Sorted(s)
    ensures Sorted(r)
    ensures multiset(r) == multiset(s) + multiset{x}
    ensures |r| == |s| + 1
  {
    if s == [] then [x]
    else if x <= s[0] then
      SortedCons(x, s);
      [x] + s
    else
      var rest := Insert(x, s[1..]);
      assert s == [s[0]] + s[1..];
      LowerBoundOfPermutation(s[0], x, s[1..], rest);
      SortedCons(s[0], rest);
      [s[0]] + rest
  }

  /** Collections.sort on the list of voiced frequencies. */
  function Sort(s: seq<real>): (r: seq<real>)
    ensures Sorted(r)
    ensures multiset(r) == multiset(s)
    ensures |r| == |s|
  {
    if s == [] then []
    else
      assert s == [s[0]] + s[1..];
      Insert(s[0], Sort(s[1..]))
  }

  /** Any two sorted arrangements of the same values are equal, so the model's
      insertion sort yields exactly what Collections.sort yields. */
  lemma {:induction false} SortedArrangementUnique(a: seq<real>, b: seq<real>)
    requires Sorted(a) && Sorted(b) && multiset(a) == multiset(b)
    ensures a == b
    decreases |a|
  {
    assert |a| == |multiset(a)| == |multiset(b)| == |b|;
    if a != [] {
      assert a[0] in multiset(a) && b[0] in multiset(b);
      SortedHeadIsLeast(a, b[0]);
      SortedHeadIsLeast(b, a[0]);
      assert a[0] == b[0];
      MultisetTail(a);
      MultisetTail(b);
      SortedTail(a);
      SortedTail(b);
      SortedArrangementUnique(a[1..], b[1..]);
      assert a == [a[0]] + a[1..] && b == [b[0]] + b[1..];
    }
  }

  /** The head of a sorted list is its least element. */
  lemma SortedHeadIsLeast(a: seq<real>, x: real)
    requires Sorted(a) && x in multiset(a)
    ensures a[0] <= x
  {
    assert x in a;
  }

  lemma SortedTail(a: seq<real>)
    requires a != [] && Sorted(a)
    ensures Sorted(a[1..])
  {
    forall i, j | 0 <= i < j < |a| - 1 ensures a[1..][i] <= a[1..][j] {
      assert a[1..][i] == a[i + 1] && a[1..][j] == a[j + 1];
    }
  }

  lemma MultisetTail(a: seq<real>)
    requires a != []
    ensures multiset(a[1..]) == multiset(a) - multiset{a[0]}
  {
    assert a == [a[0]] + a[1..];
  }

  // --------------------------------------------------------------- windows

  datatype Window = Window(low: real, high: real, count: int)

  /** Sorted positions i..j form an admissible band: f_high < max_pitch_range * f_low. */
  predicate Feasible(freq: seq<real>, i: int, j: int) {
    0 <= i <= j < |freq| && freq[j] < MaxPitchRange * freq[i]
  }

  ghost predicate NoFeasibleWindow(freq: seq<real>) {
    forall i, j | 0 <= i <= j < |freq| :: !Feasible(freq, i, j)
  }

  /** The largest j in i..top whose window with i is admissible, or -1. */
  function LastFeasible(freq: seq<real>, i: nat, top: int): (j: int)
    requires i < |freq| && top < |freq|
    ensures j == -1 || (i <= j <= top && Feasible(freq, i, j))
    ensures forall k | j < k <= top && i <= k :: !Feasible(freq, i, k)
    decreases top + 1 - i
  {
    if top < i then -1
    else if freq[top] < MaxPitchRange * freq[i] then top
    else LastFeasible(freq, i, top - 1)
  }

  /** The cutoffs before the search: the extreme values, or -1 when there are none. */
  function InitialWindow(freq: seq<real>): Window {
    if freq == [] then Window(-1.0, -1.0, -1)
    else Window(freq[0], freq[|freq| - 1], -1)
  }

  /** One outer iteration without the early exit: take the widest admissible
      window starting at i if it is strictly larger than the best so far. */
  function Step(freq: seq<real>, i: nat, best: Window): Window
    requires i < |freq|
  {
    var j := LastFeasible(freq, i, |freq| - 1);
    if j >= 0 && j - i + 1 > best.count then Window(freq[i], freq[j], j - i + 1)
    else best
  }

  function Scan(freq: seq<real>, i: nat, best: Window): Window
    requires i <= |freq|
    decreases |freq| - i
  {
    if i == |freq| then best else Scan(freq, i + 1, Step(freq, i, best))
  }

  /** Reference definition of the cutoffs: every left end, ascending, without pruning. */
  function BestWindow(freq: seq<real>): Window {
    Scan(freq, 0, InitialWindow(freq))
  }

  /** `w` is the window of left end b, spanning to b's widest admissible right end. */
  ghost predicate ChosenAt(freq: seq<real>, b: int, w: Window) {
    && 0 <= b < |freq|
    && var j := LastFeasible(freq, b, |freq| - 1);
    && j >= 0
    && w == Window(freq[b], freq[j], j - b + 1)
  }

  /** What the scan has established after looking at left ends 0..i-1. */
  ghost predicate ScanSummary(freq: seq<real>, i: nat, w: Window) {
    && i <= |freq|
    && (w.count == -1 || w.count >= 1)
    && (w.count == -1 ==>
          w == InitialWindow(freq) && forall a, j | 0 <= a < i && a <= j < |freq| :: !Feasible(freq, a, j))
    && (w.count >= 1 ==>
          && (forall a, j | 0 <= a < i && Feasible(freq, a, j) :: j - a + 1 <= w.count)
          && exists b | 0 <= b < i :: ChosenAt(freq, b, w) &&
               forall a, j | 0 <= a < b && Feasible(freq, a, j) :: j - a + 1 < w.count)
  }

  lemma StepSummary(freq: seq<real>, i: nat, w: Window)
    requires i < |freq| && ScanSummary(freq, i, w)
    ensures ScanSummary(freq, i + 1, Step(freq, i, w))
  {
    var j := LastFeasible(freq, i, |freq| - 1);
    var w' := Step(freq, i, w);
    forall k | i <= k < |freq| && Feasible(freq, i, k)
      ensures k <= j
    {
    }
    if j >= 0 && j - i + 1 > w.count {
      assert ChosenAt(freq, i, w');
      if w.count >= 1 {
        var b :| 0 <= b < i && ChosenAt(freq, b, w) &&
          forall a, j | 0 <= a < b && Feasible(freq, a, j) :: j - a + 1 < w.count;
      }
      assert forall a, k | 0 <= a < i && Feasible(freq, a, k) :: k - a + 1 < w'.count;
    } else if w.count >= 1 {
      var b :| 0 <= b < i && ChosenAt(freq, b, w) &&
        forall a, j | 0 <= a < b && Feasible(freq, a, j) :: j - a + 1 < w.count;
      assert ChosenAt(freq, b, w');
    }
  }

  lemma {:induction false} ScanKeepsSummary(freq: seq<real>, i: nat, w: Window)
    requires i <= |freq| && ScanSummary(freq, i, w)
    ensures ScanSummary(freq, |freq|, Scan(freq, i, w))
    decreases |freq| - i
  {
    if i < |freq| {
      StepSummary(freq, i, w);
      ScanKeepsSummary(freq, i + 1, Step(freq, i, w));
    }
  }

  /** The cutoffs are either untouched (no admissible window at all) or the
      largest admissible window, the one with the smallest left end among the
      largest, extended to its widest right end. */
  lemma BestWindowCharacterised(freq: seq<real>)
    ensures var w := BestWindow(freq);
      && (w.count == -1 <==> NoFeasibleWindow(freq))
      && (w.count == -1 ==> w == InitialWindow(freq))
      && (w.count != -1 ==>
            && w.count >= 1
            && (forall a, j | Feasible(freq, a, j) :: j - a + 1 <= w.count)
            && exists b :: ChosenAt(freq, b, w) &&
                 forall a, j | 0 <= a < b && Feasible(freq, a, j) :: j - a + 1 < w.count)
  {
    ScanKeepsSummary(freq, 0, InitialWindow(freq));
    var w := BestWindow(freq);
    if w.count >= 1 {
      var b :| 0 <= b < |freq| && ChosenAt(freq, b, w) &&
        forall a, j | 0 <= a < b && Feasible(freq, a, j) :: j - a + 1 < w.count;
      assert Feasible(freq, b, LastFeasible(freq, b, |freq| - 1));
    }
  }

  /** The nested search of Pitch.java, including its early exit
      `if (j - i + 1 < count) break`. It selects exactly the reference window,
      so the pruning never changes the outcome. */
  method SelectWindow(freq: seq<real>) returns (w: Window)
    ensures w == BestWindow(freq)
    ensures w.count == -1 <==> NoFeasibleWindow(freq)
    ensures w.count == -1 ==> w == InitialWindow(freq)
    ensures forall a, j | Feasible(freq, a, j) :: j - a + 1 <= w.count
  {
    var low, high, count := -1.0, -1.0, -1;
    if |freq| > 0 {
      low, high := freq[0], freq[|freq| - 1];
    }
    var i := 0;
    while i < |freq|
      invariant 0 <= i <= |freq|
      invariant Scan(freq, i, Window(low, high, count)) == BestWindow(freq)
    {
      ghost var before := Window(low, high, count);
      var fLow := freq[i];
      var j := |freq| - 1;
      var scanning := true;
      while scanning && j >= i
        invariant i - 1 <= j <= |freq| - 1
        invariant scanning ==> Window(low, high, count) == before
        invariant scanning ==> LastFeasible(freq, i, |freq| - 1) == LastFeasible(freq, i, j)
        invariant !scanning ==> Window(low, high, count) == Step(freq, i, before)
        decreases j + 1, scanning
      {
        if j - i + 1 < count {
          scanning := false;
        } else {
          var fHigh := freq[j];
          if fHigh < MaxPitchRange * fLow {
            if j - i + 1 > count {
              low, high, count := fLow, fHigh, j - i + 1;
            }
            scanning := false;
          } else {
            j := j - 1;
          }
        }
      }
      i := i + 1;
    }
    w := Window(low, high, count);
    BestWindowCharacterised(freq);
  }
}

module RangeBand {
  import opened PitchTypes
  import opened RangeWindow

  // ------------------------------------------------------------- counting

  /** How many values of s lie in the closed band [a, b]. */
  function CountIn(s: seq<real>, a: real, b: real): (n: nat)
    ensures n <= |s|
  {
    if s == [] then 0
    else CountIn(s[..|s| - 1], a, b) + (if a <= s[|s| - 1] <= b then 1 else 0)
  }

  lemma {:induction false} CountInAppend(s: seq<real>, t: seq<real>, a: real, b: real)
    ensures CountIn(s + t, a, b) == CountIn(s, a, b) + CountIn(t, a, b)
    decreases |t|
  {
    if t == [] {
      assert s + t == s;
    } else {
      assert (s + t)[..|s + t| - 1] == s + t[..|t| - 1];
      CountInAppend(s, t[..|t| - 1], a, b);
    }
  }

  /** The count depends only on the values, not on their arrangement. */
  lemma {:induction false} CountInPermutation(s: seq<real>, t: seq<real>, a: real, b: real)
    requires multiset(s) == multiset(t)
    ensures CountIn(s, a, b) == CountIn(t, a, b)
    decreases |s|
  {
    if s != [] {
      var x := s[|s| - 1];
      assert s == s[..|s| - 1] + [x];
      assert x in multiset(t);
      var k :| 0 <= k < |t| && t[k] == x;
      assert t == t[..k] + [x] + t[k + 1..];
      assert multiset(s) == multiset(s[..|s| - 1]) + multiset{x};
      assert multiset(t) == multiset(t[..k]) + multiset{x} + multiset(t[k + 1..]);
      calc {
        multiset(s[..|s| - 1]);
        multiset(s) - multiset{x};
        multiset(t) - multiset{x};
        multiset(t[..k]) + multiset(t[k + 1..]);
        multiset(t[..k] + t[k + 1..]);
      }
      CountInPermutation(s[..|s| - 1], t[..k] + t[k + 1..], a, b);
      CountInAppend(t[..k], t[k + 1..], a, b);
      CountInAppend(t[..k] + [x], t[k + 1..], a, b);
      CountInAppend(t[..k], [x], a, b);
      assert [x][..0] == [];
    }
  }

  /** When exactly the positions p..q-1 hold values in the band, the count is q - p. */
  lemma {:induction false} CountInInterval(s: seq<real>, a: real, b: real, p: int, q: int)
    requires 0 <= p <= q <= |s|
    requires forall k | 0 <= k < |s| :: (p <= k < q) <==> (a <= s[k] <= b)
    ensures CountIn(s, a, b) == q - p
    decreases |s|
  {
    if s != [] {
      var n := |s| - 1;
      var s' := s[..n];
      if p == q {
        CountInInterval(s', a, b, 0, 0);
      } else if q == |s| {
        CountInInterval(s', a, b, p, q - 1);
      } else {
        CountInInterval(s', a, b, p, q);
      }
    }
  }

  /** The first position at or after k whose value is not below a
      (its value is then at least a), or |s|. */
  function FirstNotBelow(s: seq<real>, a: real, k: nat): (r: nat)
    requires k <= |s|
    ensures k <= r <= |s|
    ensures forall i | k <= i < r :: s[i] < a
    ensures r < |s| ==> a <= s[r]
    decreases |s| - k
  {
    if k == |s| || a <= s[k] then k else FirstNotBelow(s, a, k + 1)
  }

  function FirstAbove(s: seq<real>, b: real, k: nat): (r: nat)
    requires k <= |s|
    ensures k <= r <= |s|
    ensures forall i | k <= i < r :: s[i] <= b
    ensures r < |s| ==> b < s[r]
    decreases |s| - k
  {
    if k == |s| || b < s[k] then k else FirstAbove(s, b, k + 1)
  }

  /** In a sorted list the values inside a band sit at consecutive positions. */
  lemma BandIsInterval(s: seq<real>, a: real, b: real) returns (p: int, q: int)
    requires Sorted(s)
    ensures 0 <= p <= q <= |s|
    ensures forall k | 0 <= k < |s| :: (p <= k < q) <==> (a <= s[k] <= b)
  {
    p := FirstNotBelow(s, a, 0);
    var q0 := FirstAbove(s, b, 0);
    q := if q0 < p then p else q0;
    forall k | 0 <= k < |s| ensures (p <= k < q) <==> (a <= s[k] <= b) {
      if k >= q0 && q0 < |s| {
        assert s[q0] <= s[k];
      }
      if k >= p && p < |s| {
        assert s[p] <= s[k];
      }
    }
  }

  /** Value-level maximality: no band [a, b] with b < 3.32 a holds more of the
      sorted frequencies than the selected window's count. */
  lemma BandHoldsAtMostBest(freq: seq<real>, a: real, b: real)
    requires Sorted(freq)
    requires 0.0 < a && b < MaxPitchRange * a
    ensures CountIn(freq, a, b) == 0 || CountIn(freq, a, b) <= BestWindow(freq).count
  {
    var p, q := BandIsInterval(freq, a, b);
    CountInInterval(freq, a, b, p, q);
    if p < q {
      assert a <= freq[p] && freq[q - 1] <= b;
      assert MaxPitchRange * a <= MaxPitchRange * freq[p];
      assert Feasible(freq, p, q - 1);
      BestWindowCharacterised(freq);
    }
  }

  /** The band of the selected window holds exactly `count` sorted frequencies:
      equal values never straddle its edges. */
  lemma BestBandCountExact(freq: seq<real>)
    requires Sorted(freq)
    requires BestWindow(freq).count >= 1
    ensures CountIn(freq, BestWindow(freq).low, BestWindow(freq).high) == BestWindow(freq).count
  {
    var w := BestWindow(freq);
    BestWindowCharacterised(freq);
    var b :| ChosenAt(freq, b, w) &&
      forall a, j | 0 <= a < b && Feasible(freq, a, j) :: j - a + 1 < w.count;
    ChosenBandCount(freq, b, w);
  }

  /** A window chosen at left end b, with no admissible window of its size
      further left, holds exactly `count` sorted frequencies. */
  lemma ChosenBandCount(freq: seq<real>, b: int, w: Window)
    requires Sorted(freq) && ChosenAt(freq, b, w)
    requires forall a, j | 0 <= a < b && Feasible(freq, a, j) :: j - a + 1 < w.count
    ensures CountIn(freq, w.low, w.high) == w.count
  {
    var j := LastFeasible(freq, b, |freq| - 1);
    assert Feasible(freq, b, j);
    if b > 0 {
      // widening the window one step to the left would beat the maximum
      assert !Feasible(freq, b - 1, j);
    }
    if j + 1 < |freq| {
      // j is the widest admissible right end for b
      assert !Feasible(freq, b, j + 1);
    }
    SortedBandIndices(freq, b, j);
    CountInInterval(freq, w.low, w.high, b, j + 1);
  }

  /** In a sorted list, a run b..j with strictly smaller values before it and
      strictly larger ones after it is exactly the set of positions whose
      values lie between its ends. */
  lemma SortedBandIndices(freq: seq<real>, b: int, j: int)
    requires Sorted(freq) && 0 <= b <= j < |freq|
    requires b > 0 ==> freq[b - 1] < freq[b]
    requires j + 1 < |freq| ==> freq[j] < freq[j + 1]
    ensures forall k | 0 <= k < |freq| :: (b <= k < j + 1) <==> (freq[b] <= freq[k] <= freq[j])
  {
    forall k | 0 <= k < |freq| ensures (b <= k < j + 1) <==> (freq[b] <= freq[k] <= freq[j]) {
      if k < b {
        assert freq[k] <= freq[b - 1];
      } else if k > j {
        assert freq[j + 1] <= freq[k];
      }
    }
  }

  // ------------------------------------------------------- pass 1 proper

  /** Pitch.java keeps a sample when it is silent or its pitch lies within the cutoffs. */
  predicate InBand(p: Sample, w: Window) {
    IsSilent(p) || (w.low <= p.f && p.f <= w.high)
  }

  function BandFilter(xs: Contour, w: Window): (r: Contour)
    ensures Subseq(r, xs)
    ensures forall k | 0 <= k < |r| :: InBand(r[k], w)
    ensures forall k | 0 <= k < |xs| && InBand(xs[k], w) :: xs[k] in r
  {
    if xs == [] then []
    else
      var rest := BandFilter(xs[1..], w);
      assert forall k | 1 <= k < |xs| :: xs[k] == xs[1..][k - 1];
      if InBand(xs[0], w) then [xs[0]] + rest else rest
  }

  /** The band filter keeps each in-band sample as often as the input holds
      it, and no out-of-band sample at all. */
  lemma {:induction false} BandFilterMultiplicity(xs: Contour, w: Window)
    ensures forall p :: multiset(BandFilter(xs, w))[p] == if InBand(p, w) then multiset(xs)[p] else 0
    decreases |xs|
  {
    if xs != [] {
      BandFilterMultiplicity(xs[1..], w);
      assert xs == [xs[0]] + xs[1..];
    }
  }

  /** Pass 1 as a whole: sort the voiced frequencies, pick the window, filter. */
  function RangePass(xs: Contour): (r: Contour)
    ensures Subseq(r, xs)
    ensures forall k | 0 <= k < |xs| && IsSilent(xs[k]) :: xs[k] in r
    ensures forall k | 0 <= k < |r| && !IsSilent(r[k]) :: r[k].f in VoicedFreqs(xs)
  {
    var r := BandFilter(xs, BestWindow(Sort(VoicedFreqs(xs))));
    SubseqVoicedFreqs(r, xs);
    r
  }

  /** A voiced sample kept from a contour carries one of its voiced frequencies. */
  lemma {:induction false} SubseqVoicedFreqs(a: Contour, b: Contour)
    requires Subseq(a, b)
    ensures forall k | 0 <= k < |a| && !IsSilent(a[k]) :: a[k].f in VoicedFreqs(b)
    decreases |b|
  {
    if b != [] {
      assert VoicedFreqs(b) == (if IsSilent(b[0]) then [] else [b[0].f]) + VoicedFreqs(b[1..]);
      if a != [] && a[0] == b[0] && Subseq(a[1..], b[1..]) {
        SubseqVoicedFreqs(a[1..], b[1..]);
        forall k | 0 <= k < |a| && !IsSilent(a[k]) ensures a[k].f in VoicedFreqs(b) {
          if k > 0 {
            assert a[k] == a[1..][k - 1];
          }
        }
      } else {
        SubseqVoicedFreqs(a, b[1..]);
      }
    }
  }

  lemma {:induction false} VoicedKeptByBand(xs: Contour, w: Window)
    ensures |VoicedSamples(BandFilter(xs, w))| == CountIn(VoicedFreqs(xs), w.low, w.high)
    decreases |xs|
  {
    if xs != [] {
      VoicedKeptByBand(xs[1..], w);
      var head := if IsSilent(xs[0]) then [] else [xs[0].f];
      assert VoicedFreqs(xs) == head + VoicedFreqs(xs[1..]);
      CountInAppend(head, VoicedFreqs(xs[1..]), w.low, w.high);
      var r := BandFilter(xs[1..], w);
      if InBand(xs[0], w) {
        assert ([xs[0]] + r)[1..] == r;
      }
      if head != [] {
        assert head[..0] == [];
      }
    }
  }

  lemma {:induction false} CountInAll(s: seq<real>, a: real, b: real)
    requires forall k | 0 <= k < |s| :: a <= s[k] <= b
    ensures CountIn(s, a, b) == |s|
  {
    CountInInterval(s, a, b, 0, |s|);
  }

  /** Pass 1 keeps at least as many voiced samples as any admissible band
      [a, b] (b < 3.32 a) would contain: the kept range is a maximal one. */
  lemma RangePassMaximal(xs: Contour, a: real, b: real)
    requires 0.0 < a && b < MaxPitchRange * a
    ensures CountIn(VoicedFreqs(xs), a, b) <= |VoicedSamples(RangePass(xs))|
  {
    var v := VoicedFreqs(xs);
    var freq := Sort(v);
    var w := BestWindow(freq);
    CountInPermutation(v, freq, a, b);
    CountInPermutation(v, freq, w.low, w.high);
    VoicedKeptByBand(xs, w);
    BestWindowKeepsMost(freq, a, b);
  }

  /** On the sorted list, the chosen window holds at least as many values as
      any admissible band. */
  lemma BestWindowKeepsMost(freq: seq<real>, a: real, b: real)
    requires Sorted(freq)
    requires 0.0 < a && b < MaxPitchRange * a
    ensures CountIn(freq, a, b) <= CountIn(freq, BestWindow(freq).low, BestWindow(freq).high)
  {
    var w := BestWindow(freq);
    BestWindowCharacterised(freq);
    if w.count >= 1 {
      BandHoldsAtMostBest(freq, a, b);
      BestBandCountExact(freq);
    } else if freq != [] {
      assert w == InitialWindow(freq);
      CountInAll(freq, w.low, w.high);
    }
  }

}

=== FILE: silence.dfy ===
/** Pass 3 of Pitch.FilterPitch: replace each run of "no pitch" samples by its
    first sample, never start with one, and drop one at the very end. */
module Silence {
  import opened PitchTypes

  /** Consecutive silent samples never occur. */
  ghost predicate NoAdjacentSilence(xs: Contour) {
    forall i | 0 <= i < |xs| - 1 :: !(IsSilent(xs[i]) && IsSilent(xs[i + 1]))
  }

  /** The shape pass 3 produces: no silent pair, no silent first or last sample. */
  ghost predicate Clean(xs: Contour) {
    && NoAdjacentSilence(xs)
    && (xs != [] ==> !IsSilent(xs[0]) && !IsSilent(xs[|xs| - 1]))
  }

  /** The output so far is empty or ends in silence: a silent sample is skipped. */
  predicate AtGap(acc: Contour) {
    acc == [] || IsSilent(acc[|acc| - 1])
  }

  /** Reference definition of the collapse: `gap` says whether the output
      produced so far is empty or ends in silence. */
  function CollapseFrom(rest: Contour, gap: bool): Contour
    decreases |rest|
  {
    if rest == [] then []
    else if IsSilent(rest[0]) && gap then CollapseFrom(rest[1..], gap)
    else [rest[0]] + CollapseFrom(rest[1..], IsSilent(rest[0]))
  }

  function TrimTrailingSilence(xs: Contour): Contour {
    if xs != [] && IsSilent(xs[|xs| - 1]) then xs[..|xs| - 1] else xs
  }

  /** Reference definition of pass 3. */
  function SilenceSpec(xs: Contour): Contour {
    TrimTrailingSilence(CollapseFrom(xs, true))
  }

  /** Pass 3 as Pitch.java runs it: one loop appending to dta2, then a
      single removal of a trailing "no pitch" sample. */
  method SilencePass(xs: Contour) returns (ys: Contour)
    ensures ys == SilenceSpec(xs)
    ensures Clean(ys)
  {
    ys := [];
    var k := 0;
    while k < |xs|
      invariant 0 <= k <= |xs|
      invariant ys + CollapseFrom(xs[k..], AtGap(ys)) == CollapseFrom(xs, true)
    {
      var point := xs[k];
      assert xs[k..][1..] == xs[k + 1..];
      if IsSilent(point) && (ys == [] || IsSilent(ys[|ys| - 1])) {
      } else {
        assert AtGap(ys + [point]) == IsSilent(point);
        ys := ys + [point];
      }
      k := k + 1;
    }
    assert xs[|xs|..] == [];
    if ys != [] && IsSilent(ys[|ys| - 1]) {
      ys := ys[..|ys| - 1];
    }
    SilenceSpecClean(xs);
  }

  lemma {:induction false} CollapseShape(rest: Contour, gap: bool)
    ensures var r := CollapseFrom(rest, gap);
      NoAdjacentSilence(r) && (gap && r != [] ==> !IsSilent(r[0]))
    decreases |rest|
  {
    if rest != [] {
      CollapseShape(rest[1..], gap);
      CollapseShape(rest[1..], IsSilent(rest[0]));
      var tail := CollapseFrom(rest[1..], IsSilent(rest[0]));
      if !(IsSilent(rest[0]) && gap) {
        var r := [rest[0]] + tail;
        forall i | 0 <= i < |r| - 1 ensures !(IsSilent(r[i]) && IsSilent(r[i + 1])) {
          if i > 0 {
            assert r[i] == tail[i - 1] && r[i + 1] == tail[i];
          }
        }
      }
    }
  }

  lemma SilenceSpecClean(xs: Contour)
    ensures Clean(SilenceSpec(xs))
  {
    var c := CollapseFrom(xs, true);
    CollapseShape(xs, true);
    if c != [] && IsSilent(c[|c| - 1]) && |c| > 1 {
      assert !IsSilent(c[|c| - 2]);
    }
  }

  lemma {:induction false} CollapseVoiced(rest: Contour, gap: bool)
    ensures VoicedSamples(CollapseFrom(rest, gap)) == VoicedSamples(rest)
    decreases |rest|
  {
    if rest != [] {
      CollapseVoiced(rest[1..], gap);
      CollapseVoiced(rest[1..], IsSilent(rest[0]));
      if !(IsSilent(rest[0]) && gap) {
        var tail := CollapseFrom(rest[1..], IsSilent(rest[0]));
        assert ([rest[0]] + tail)[1..] == tail;
      }
    }
  }

  lemma {:induction false} CollapseSubseq(rest: Contour, gap: bool)
    ensures Subseq(CollapseFrom(rest, gap), rest)
    decreases |rest|
  {
    if rest != [] {
      CollapseSubseq(rest[1..], gap);
      CollapseSubseq(rest[1..], IsSilent(rest[0]));
      if !(IsSilent(rest[0]) && gap) {
        var tail := CollapseFrom(rest[1..], IsSilent(rest[0]));
        assert ([rest[0]] + tail)[1..] == tail;
      }
    }
  }

  /** Pass 3 keeps every voiced sample, in order, and adds nothing: its output
      is a subsequence of its input with the same voiced samples. */
  lemma SilenceSpecKeepsVoiced(xs: Contour)
    ensures VoicedSamples(SilenceSpec(xs)) == VoicedSamples(xs)
    ensures Subseq(SilenceSpec(xs), xs)
  {
    var c := CollapseFrom(xs, true);
    CollapseVoiced(xs, true);
    CollapseSubseq(xs, true);
    if c != [] && IsSilent(c[|c| - 1]) {
      assert c == c[..|c| - 1] + [c[|c| - 1]];
      VoicedSamplesAppend(c[..|c| - 1], [c[|c| - 1]]);
      SubseqPrefix(c, |c| - 1);
      SubseqTrans(c[..|c| - 1], c, xs);
    }
  }

  lemma {:induction false} CollapseFixed(xs: Contour, gap: bool)
    requires NoAdjacentSilence(xs)
    requires gap && xs != [] ==> !IsSilent(xs[0])
    ensures CollapseFrom(xs, gap) == xs
    decreases |xs|
  {
    if xs != [] {
      assert NoAdjacentSilence(xs[1..]);
      if |xs| > 1 {
        assert IsSilent(xs[0]) ==> !IsSilent(xs[1..][0]);
      }
      CollapseFixed(xs[1..], IsSilent(xs[0]));
      assert xs == [xs[0]] + xs[1..];
    }
  }

  /** Pass 3 leaves a contour unchanged exactly when it already has the clean
      shape; hence running it twice is the same as running it once. */
  lemma SilenceSpecFixedIff(xs: Contour)
    ensures SilenceSpec(xs) == xs <==> Clean(xs)
    ensures SilenceSpec(SilenceSpec(xs)) == SilenceSpec(xs)
  {
    if Clean(xs) {
      CollapseFixed(xs, true);
    }
    SilenceSpecClean(xs);
    CollapseFixed(SilenceSpec(xs), true);
  }
}

=== FILE: slew_rate.dfy ===
/** Pass 2 of Pitch.FilterPitch and its per-pair test Pitch.checkSlewRate:
    a sample is a glitch when the voice could not have reached it from its
    predecessor nor left it for its successor in the time available. */
module SlewRate {
  import opened PitchTypes
  import opened RangeWindow

  /** Seconds of rise time per unit of ln(f1/f0): 8.7 ms per semitone. */
  const RiseCoefficient: real := 0.1506

  /** Seconds of fall time per unit of ln(f0/f1): 5.8 ms per semitone. */
  const FallCoefficient: real := 0.1004

  /** The verdict for a pair already in time order (a no later than b). */
  function OrderedVerdict(a: Sample, b: Sample, ln: real -> real): bool {
    var dt := b.t - a.t;
    if a.f <= 0.0 || b.f <= 0.0 then true
    else if b.f > a.f then dt * SafetyFactor > RiseCoefficient * ln(b.f / a.f)
    else if b.f < a.f then dt * SafetyFactor > FallCoefficient * ln(a.f / b.f)
    else true
  }

  /** Pitch.checkSlewRate, with Math.log passed in as `ln`. The pair is first
      put in time order; equal times take the second argument as the earlier. */
  function CheckSlewRate(p0: Sample, p1: Sample, ln: real -> real): (ok: bool)
    ensures (p0.f <= 0.0 || p1.f <= 0.0) ==> ok
    ensures p0.f == p1.f ==> ok
  {
    if p0.t < p1.t then OrderedVerdict(p0, p1, ln) else OrderedVerdict(p1, p0, ln)
  }

  /** Two different pitches at the same instant fail in either orientation. */
  lemma InstantJumpFails(a: Sample, b: Sample, ln: real -> real)
    requires IsLog(ln)
    requires a.t == b.t && a.f > 0.0 && b.f > 0.0 && a.f != b.f
    ensures !OrderedVerdict(a, b, ln)
  {
    if b.f > a.f {
      LogPositiveAboveOne(ln, b.f / a.f);
    } else {
      LogPositiveAboveOne(ln, a.f / b.f);
    }
  }

  /** The verdict does not depend on argument order, even for two samples at
      the same instant, where the swap picks opposite orientations. */
  lemma SlewSymmetric(p0: Sample, p1: Sample, ln: real -> real)
    requires IsLog(ln)
    ensures CheckSlewRate(p0, p1, ln) == CheckSlewRate(p1, p0, ln)
  {
    if p0.t == p1.t && p0.f > 0.0 && p1.f > 0.0 && p0.f != p1.f {
      InstantJumpFails(p0, p1, ln);
      InstantJumpFails(p1, p0, ln);
    }
  }

  /** A rising pair in time order passes, whichever way round it is given,
      exactly when delta_t * safety_factor exceeds 0.1506 * ln(f1/f0).
      RiseCoefficient is the rise_time factor of Pitch.java:500-503. */
  lemma SlewRisingIff(early: Sample, late: Sample, ln: real -> real)
    requires early.t < late.t && 0.0 < early.f < late.f
    ensures CheckSlewRate(early, late, ln) <==>
      (late.t - early.t) * SafetyFactor > RiseCoefficient * ln(late.f / early.f)
    ensures CheckSlewRate(late, early, ln) == CheckSlewRate(early, late, ln)
  {
  }

  /** A falling pair in time order passes exactly when
      delta_t * safety_factor exceeds 0.1004 * ln(f0/f1).
      FallCoefficient is the fall_time factor of Pitch.java:504-507. */
  lemma SlewFallingIff(early: Sample, late: Sample, ln: real -> real)
    requires early.t < late.t && early.f > late.f > 0.0
    ensures CheckSlewRate(early, late, ln) <==>
      (late.t - early.t) * SafetyFactor > FallCoefficient * ln(early.f / late.f)
    ensures CheckSlewRate(late, early, ln) == CheckSlewRate(early, late, ln)
  {
  }

  /** Two different pitches at the same instant never pass. */
  lemma SimultaneousJumpFails(p0: Sample, p1: Sample, ln: real -> real)
    requires IsLog(ln)
    requires p0.t == p1.t && p0.f > 0.0 && p1.f > 0.0 && p0.f != p1.f
    ensures !CheckSlewRate(p0, p1, ln)
  {
    InstantJumpFails(p1, p0, ln);
  }

  /** Taking longer for the same pitch change never turns a pass into a failure. */
  lemma SlewSlowerStillPasses(t0: real, t1: real, u0: real, u1: real, f0: real, f1: real, ln: real -> real)
    requires IsLog(ln)
    requires t0 < t1 && u0 < u1 && t1 - t0 <= u1 - u0
    requires CheckSlewRate(Sample(t0, f0), Sample(t1, f1), ln)
    ensures CheckSlewRate(Sample(u0, f0), Sample(u1, f1), ln)
  {
    assert (t1 - t0) * SafetyFactor <= (u1 - u0) * SafetyFactor;
  }

  // ------------------------------------------------------------- pass 2

  /** Sample k is a glitch: an interior sample whose transition in from
      sample k-1 and out to sample k+1 both fail the check. */
  predicate Dropped(xs: Contour, k: int, ln: real -> real) {
    && 0 < k < |xs| - 1
    && !CheckSlewRate(xs[k - 1], xs[k], ln)
    && !CheckSlewRate(xs[k], xs[k + 1], ln)
  }

  /** The samples from position k on that are not glitches, in order. */
  function KeptFrom(xs: Contour, k: nat, ln: real -> real): Contour
    decreases |xs| - k
  {
    if k >= |xs| then []
    else (if Dropped(xs, k, ln) then [] else [xs[k]]) + KeptFrom(xs, k + 1, ln)
  }

  /** Reference definition of pass 2: drop exactly the glitches of the input. */
  function SlewFilter(xs: Contour, ln: real -> real): Contour {
    KeptFrom(xs, 0, ln)
  }

  /** Pass 2 as Pitch.java runs it: an iterator with the flags check_curr and
      check_next. The flag carried into the next step is always the check
      against the previous INPUT sample, dropped or not. */
  method SlewPass(xs: Contour, ln: real -> real) returns (ys: Contour)
    requires |xs| > 0
    ensures ys == SlewFilter(xs, ln)
    ensures |ys| > 0 && ys[0] == xs[0] && ys[|ys| - 1] == xs[|xs| - 1]
  {
    ys := [];
    var ptNext := xs[0];
    var checkNext := true;
    var k := 1;
    while k < |xs|
      invariant 1 <= k <= |xs|
      invariant ptNext == xs[k - 1]
      invariant checkNext == (k == 1 || CheckSlewRate(xs[k - 2], xs[k - 1], ln))
      invariant ys + KeptFrom(xs, k - 1, ln) == SlewFilter(xs, ln)
      invariant k == 1 ==> ys == []
      invariant k > 1 ==> |ys| > 0 && ys[0] == xs[0]
    {
      var ptCurr := ptNext;
      ptNext := xs[k];
      var checkCurr := checkNext;
      checkNext := CheckSlewRate(ptCurr, ptNext, ln);
      assert Dropped(xs, k - 1, ln) <==> !checkCurr && !checkNext;
      KeptFromStep(xs, k - 1, ys, ln);
      if !checkCurr && !checkNext {
      } else {
        ys := ys + [ptCurr];
      }
      k := k + 1;
    }
    assert KeptFrom(xs, |xs| - 1, ln) == [xs[|xs| - 1]];
    ys := ys + [ptNext];
  }

  lemma KeptFromStep(xs: Contour, k: nat, ys: Contour, ln: real -> real)
    requires k < |xs|
    ensures ys + KeptFrom(xs, k, ln) ==
      (if Dropped(xs, k, ln) then ys else ys + [xs[k]]) + KeptFrom(xs, k + 1, ln)
  {
  }

  lemma {:induction false} KeptFromSubseq(xs: Contour, k: nat, ln: real -> real)
    requires k <= |xs|
    ensures Subseq(KeptFrom(xs, k, ln), xs[k..])
    decreases |xs| - k
  {
    if k < |xs| {
      KeptFromSubseq(xs, k + 1, ln);
      var rest := KeptFrom(xs, k + 1, ln);
      var b := xs[k..];
      assert b != [] && b[0] == xs[k] && b[1..] == xs[k + 1..];
      if !Dropped(xs, k, ln) {
        var a := [xs[k]] + rest;
        assert a[0] == b[0] && a[1..] == rest;
        assert Subseq(a, b);
      } else {
        assert KeptFrom(xs, k, ln) == [] + rest == rest;
        assert Subseq(rest, b[1..]);
      }
    }
  }

  /** Every sample that is not a glitch survives pass 2. */
  lemma {:induction false} KeptFromKeeps(xs: Contour, k: nat, i: int, ln: real -> real)
    requires k <= i < |xs| && !Dropped(xs, i, ln)
    ensures xs[i] in KeptFrom(xs, k, ln)
    decreases |xs| - k
  {
    if k < i {
      KeptFromKeeps(xs, k + 1, i, ln);
    }
  }

  /** Pass 2 output is an order-preserving subsequence of its input that keeps
      every non-glitch; in particular silent samples and any sample next to a
      silent (or non-positive) one are never dropped. */
  lemma SlewFilterKeeps(xs: Contour, ln: real -> real)
    ensures Subseq(SlewFilter(xs, ln), xs)
    ensures forall i | 0 <= i < |xs| && !Dropped(xs, i, ln) :: xs[i] in SlewFilter(xs, ln)
    ensures forall i | 0 <= i < |xs| && xs[i].f <= 0.0 :: xs[i] in SlewFilter(xs, ln)
    ensures forall i | 0 < i < |xs| && xs[i - 1].f <= 0.0 :: xs[i] in SlewFilter(xs, ln)
    ensures forall i | 0 <= i < |xs| - 1 && xs[i + 1].f <= 0.0 :: xs[i] in SlewFilter(xs, ln)
  {
    KeptFromSubseq(xs, 0, ln);
    assert xs[0..] == xs;
    forall i | 0 <= i < |xs| && !Dropped(xs, i, ln) ensures xs[i] in SlewFilter(xs, ln) {
      KeptFromKeeps(xs, 0, i, ln);
    }
  }

  /** Contours of one or two samples pass through unchanged. */
  lemma SlewFilterShort(xs: Contour, ln: real -> real)
    requires |xs| <= 2
    ensures SlewFilter(xs, ln) == xs
  {
    assert KeptFrom(xs, |xs|, ln) == [];
    if |xs| == 2 {
      assert KeptFrom(xs, 1, ln) == [xs[1]];
    }
  }
}
